=== FILE: README.md ===
# wallhaven-cli: a model of the command line's decision logic

`wallhaven/cli.go` is the command-line front end of a wallhaven.cc client.
It has these commands:

- `search` shows one page of search results in fzf, a fuzzy-finder menu. The user pages forward and back and picks an image, which is then downloaded.
- `download` saves a list of URLs.
- `collection` lists a user's collections and picks one. It then either saves every image of every page (`--all`) or runs the same paging menu as `search`.
- `preview` is the hook that fzf calls for the highlighted line. It detects the terminal's graphics capability (kitty, sixel or neither) and picks a renderer: kitty's icat, img2sixel or ImageMagick, or chafa. Where the renderer needs a local file, it downloads the image to a temporary file and runs the renderer. It removes the file only when the renderer succeeds; a failed render leaves it in place.

The model states this logic in Dafny. Nothing outside the file is executed:

- Every call into the web API, the downloader, fzf, the PATH lookup, `stty`/`tput`, the running of a command and the removal of a file is a parameter of the model.
- Every environment variable the command reads is a parameter too.
- fzf's replies are a sequence, consumed one reply per call. A loop that could run forever therefore ends when the replies run out (the outcome `Pending`), or, in the `--all` mode, after a fuel bound.
- External actions are recorded, in order, as a trace of `Event`s:
  - `ListCollections`, `Fetch(page)`, `Offer(lines, preview)` (one fzf menu), `Save(url)`;
  - `SaveTemp(url, dir)` (download into the temporary folder), `Exec(command)`, `Remove(path)`.

The project has eight modules:

| module | what it holds |
|---|---|
| `Common` | Option, Result, Status, the error messages, commands, events |
| `Text` | `strings.Contains`, `strings.Fields`, `strings.TrimSpace`, the last element of `strings.Split(url, "/")`, `filepath.Join`, the `"<caption> (<ref>)"` menu lines |
| `Numbers` | Go's 64-bit `int`, `strconv.Atoi` (following `ParseInt`, including its range clamp) and `strconv.Itoa` |
| `Geometry` | `getPreviewPaneDimensions`, the fallback chain of the sixel branch, `cellsToPixels` |
| `Selection` | `search`'s menu builder, the `for url == ""` paging loop, `Search` |
| `Downloads` | `Download`, and the per-image save loop |
| `Collections` | `Collection`, with its `--all` mode |
| `Previews` | `Preview` and `checkSixelSupport` |

The style is mixed:

- Every loop of the source is a `method` with a `while` or `for` loop: the menu builder, the paging loop, the save loops, the `--all` loop and the allowlist scan.
- The switch of `Preview`, which assigns the command and the file step by step, is a set of methods of straight-line assignments and branches (`ChooseCommand`, `SixelBranch`, `MeasurePane`, `FindConverter`, `Preview`).
- Each such method is proved equal to a specification function (`Selections`, `Browsing`, `Saving`, `Walking`, `SixelTerminal`, `PlanOf`/`PreviewOf`).
- The properties the code promises are then proved about those functions as lemmas.
- The global `page` becomes a variable of the loops.

Three behaviours of the code are worth noting:

- **Temporary-file removal.** The temporary file is removed only after a successful run (lines 318-325). A failed render returns its error first and leaves the file in place.
- **The sixel "no converter" error.** In the sixel tier the image is downloaded (line 243) before any converter is looked for (lines 272-289), so the "no converter" error follows a download.
- **The empty-page message.** An empty result page reports "No collections from this user." (line 18), even under `search`.

## Model

All sources are in `wallhaven/cli.go`.

| member | source | states |
|---|---|---|
| Selection.SelectionsShape | wallhaven/cli.go:21-32 | The menu holds "Next page -->" exactly when the last page lies beyond the current one, and "Previous page <--" exactly when the page is past 1. Next comes before Previous, and both come before the image lines. There is one "resolution (url)" line per image, in page order. The length is the image count plus the number of navigation lines. |
| Selection.BuildSelections | wallhaven/cli.go:14-32 | An empty page is an error before fzf is called. Otherwise the list built by appending is exactly the menu `Selections` of the page. |
| Selection.ImageLines | wallhaven/cli.go:29-32 | One line per image, the i-th line being the i-th image's "resolution (url)". |
| Selection.SearchMenu | wallhaven/cli.go:14-40 | `search` offers the menu only for a page with images, and hands back fzf's error or the chosen line. |
| Selection.MenuAnswer | wallhaven/cli.go:17-39 | An empty page gives the "no images" error. Otherwise a cancelled fzf gives its error, and a choice gives exactly the chosen line. |
| Selection.NavigationSteps | wallhaven/cli.go:58-62 | The "Next page -->" line reads as a step forward. The "Previous page <--" line has no "-->" and reads as a step back. |
| Selection.MenuLine | wallhaven/cli.go:21-32 | A line of the menu is an image line, "Next page -->" when a later page exists, or "Previous page <--" when the page is past 1. |
| Selection.PageStaysInRange | wallhaven/cli.go:58-64 | For a reply taken from the menu, when no image line carries a marker: forward goes to page+1, which is at most the last page; back goes to page-1, which is at least 1; a pick keeps the page and is an image line. So the page stays between 1 and the last page. |
| Selection.RoundAt | wallhaven/cli.go:47-65 | Every round starts by fetching the current page. A round goes on only after a choice from fzf, and the loop never ends with an empty URL. |
| Selection.PlayRound | wallhaven/cli.go:47-65 | One pass of the loop body (fetch, menu, step) equals the round `RoundAt`. |
| Selection.SelectImage | wallhaven/cli.go:47-65 | The `for url == ""` loop, with `page` and `url` as its variables, ends with exactly the result of `Browsing`. |
| Selection.BrowsingStaysOnPages | wallhaven/cli.go:47-65 | Starting from a page of at least 1, with replies taken from the menus shown, the loop only ever fetches pages numbered 1 or more, and ends on such a page. |
| Selection.NavigationRefetches | wallhaven/cli.go:58-61 | Choosing "Next page -->" or "Previous page <--" shows the menu of the current page, then fetches page+1 or page-1 and carries on from there. |
| Selection.PickingAnImage | wallhaven/cli.go:63 | Choosing an image's line ends the loop with that image's URL, on the same page, after one fetch and one menu. This assumes the URL is read back as the text inside the trailing parentheses. |
| Selection.Search | wallhaven/cli.go:42-74 | `Search` runs the loop, then downloads the chosen URL, with the download's error as the result. A loop that stops with an error performs no download. |
| Text.EntryRoundTrip | wallhaven/cli.go:30 | Reading a menu line back (the text inside the trailing parentheses) gives the URL or ID that was written into it, when that holds no '('. |
| Downloads.Saving | wallhaven/cli.go:77-84 | A run of saves attempts at most one save per URL. A failed run ends with the save that failed, and its error is the result. |
| Downloads.SaveEach | wallhaven/cli.go:135-142 | The loop over the URLs equals `Saving`: the same saves in the same order, and the same result. |
| Downloads.Download | wallhaven/cli.go:76-87 | `download` saves its arguments in order and returns the first error. |
| Downloads.SavingAllSucceed | wallhaven/cli.go:77-84 | When every save succeeds, every URL is saved, in order, and the result is success. |
| Downloads.SavingStopsAtFirstError | wallhaven/cli.go:77-84 | The run stops exactly at the first URL whose save fails. Every URL before it is saved and none after it is tried. |
| Downloads.Saves | wallhaven/cli.go:135-136 | One Save event per URL, in order. |
| Collections.CollectionLines | wallhaven/cli.go:112-115 | The collection menu has one "label (id)" line per collection, in order. |
| Collections.ImageUrls | wallhaven/cli.go:135-136 | The URLs of a page's images, in order. |
| Collections.SavePage | wallhaven/cli.go:126-147 | One pass of the `--all` loop equals `OnePage`. A failed fetch or an empty page ends the mode with an error. Otherwise the images are saved in order; a save error ends the mode; the mode goes on only while the last page lies ahead, and otherwise succeeds. |
| Collections.DownloadAll | wallhaven/cli.go:124-148 | The `for {}` loop of the `--all` mode, with the page as its variable, ends with exactly the result of `Walking`. |
| Collections.WalkDone | wallhaven/cli.go:124-148 | When the `--all` mode succeeds, it fetched every page from the first to the one it stopped at. Every one of them had images. The last page lay ahead of every page but the final one, and not ahead of the final one. |
| Collections.WalkDoneSavesAll | wallhaven/cli.go:124-148 | When the `--all` mode succeeds, its actions are, page after page, the fetch followed by the saves of every image of that page, in order. |
| Collections.WalkMovesForward | wallhaven/cli.go:143-147 | The page only moves forward in the `--all` mode. |
| Collections.SavingAllOk | wallhaven/cli.go:135-142 | A run of saves that succeeds has saved every URL. |
| Collections.WalkFails | wallhaven/cli.go:126-139 | When the `--all` mode fails, its last action is the one that failed: a fetch that failed or brought an empty page, or a save that failed with that error. |
| Collections.Collection | wallhaven/cli.go:99-187 | `Collection`, step by step, equals `CollectionRun`. In order, it: lists the collections; fails on an error or an empty list; shows the menu; reads the ID; runs the `--all` mode or the paging loop; matches the URL once more; saves it. |
| Collections.NoPageWithoutCollections | wallhaven/cli.go:103-110 | A failed lookup, or a user with no collections, ends the command with that error, after listing the collections and before any menu or page fetch. |
| Previews.CheckSixelSupport | wallhaven/cli.go:399-415 | The scan of the allowlist followed by the SIXEL_SUPPORT test returns true exactly for a sixel terminal. |
| Previews.SixelTerminalCases | wallhaven/cli.go:402-414 | TERM containing any allowlisted name, or SIXEL_SUPPORT=1, makes a sixel terminal. Neither one means it is not. |
| Previews.CapabilityPriority | wallhaven/cli.go:221-227 | Kitty exactly when KITTY_WINDOW_ID is set. Sixel exactly when it is not set and the terminal is a sixel terminal. Chafa otherwise. |
| Previews.EmptyEnvironmentMeansChafa | wallhaven/cli.go:221-227 | With KITTY_WINDOW_ID, TERM and SIXEL_SUPPORT all unset, the chafa tier is chosen. |
| Previews.NavigationLineIsNoOp | wallhaven/cli.go:213-215 | A line containing "-->" or "<--" previews as success, with no download, command or removal. |
| Previews.KittyStreamsUrl | wallhaven/cli.go:228-239 | Under kitty the remote URL goes to `kitty icat` at the FZF size. The command is the only action: nothing is downloaded or removed. Its failure is the result. |
| Previews.ConverterOrder | wallhaven/cli.go:271-289 | img2sixel is used whenever it is on the PATH, even when magick is too. magick is used otherwise. "No converter" is the result exactly when neither is found. |
| Previews.FindConverter | wallhaven/cli.go:271-289 | The two PATH lookups, one after the other, give exactly the converter `SixelConverter` describes. |
| Previews.SixelTierMeasuresPane | wallhaven/cli.go:241-269 | On a sixel terminal the preview takes the sixel branch, with the pane size measured from the probes, then the FZF variables, then 80x24, and converted to pixels. |
| Previews.SixelDownloadsFirst | wallhaven/cli.go:241-289 | In the sixel tier the download into the temporary folder is the first action. A failed download is the result. Without a converter the result is the "no converter" error, after the download. Otherwise the converter runs on the temporary file. |
| Previews.MeasurePane | wallhaven/cli.go:249-269 | The `width` and `height` assignments of the sixel branch (empty, the probed size, or on a failed probe the FZF variables when both are set, "80" by "24" when FZF_PREVIEW_LINES is unset, otherwise still empty) give exactly the fallback `SixelCells` of the probe, and the pixel size `SixelPixels`. |
| Previews.LastResortPixels | wallhaven/cli.go:249-269 | With every probe failing and FZF_PREVIEW_LINES unset, the sixel converters get 684 by 410 pixels (608 by 364 under iTerm.app). |
| Previews.PixelsOfLastResort | wallhaven/cli.go:259-260 | The 80 by 24 cell fallback is 684 by 410 pixels, or 608 by 364 under iTerm.app, after the five-percent padding of lines 374-395. |
| Previews.SixelBranch | wallhaven/cli.go:241-289 | The sixel case of the switch equals `SixelPlan`, with the measured pane size. |
| Previews.ChafaCheckedBeforeDownload | wallhaven/cli.go:291-312 | In the chafa tier, without chafa on the PATH the result is "no supported image preview method found", with no action at all. With chafa, the download is the first action, and a failed download is the result. After a successful download the chafa command runs on the temporary file at the FZF size, and the call ends as `Finish` says, so the file is removed only after a successful run. |
| Previews.TempFileName | wallhaven/cli.go:264-266 | The temporary file ends with the last '/'-separated part of the URL, a name without '/'. When the URL does not end in '/' and the folder is set without a trailing '/', it is that name placed inside the temporary folder. (For a URL ending in '/' the name is "" and the file is the folder itself.) |
| Previews.TempFileNotEmpty | wallhaven/cli.go:264-266 | With a temporary folder set, the temporary file is never "", so a successful render is always followed by the removal. |
| Previews.TempFileLifecycle | wallhaven/cli.go:315-327 | The command runs right after the actions before it. A failed command gives "failed to execute preview command: ..." and leaves the file in place. A successful one is followed by the removal, as the last action, whose result is the call's result. A Remove event occurs exactly when the command succeeded. |
| Previews.ChooseCommand | wallhaven/cli.go:207-313 | The switch of `Preview`, assigning the command and the file step by step, ends in exactly the plan `PlanOf` describes. |
| Previews.Preview | wallhaven/cli.go:207-328 | `Preview` (switch, run, removal) gives exactly the status and actions of `PreviewOf`. |
| Text.LastSegmentShape | wallhaven/cli.go:264-265 | The last element of the split URL contains no '/'. It is a suffix of the URL, and it is preceded by a '/' unless it is the whole URL. |
| Text.JoinPathShape | wallhaven/cli.go:266 | The joined path ends with the file name. It is empty only when both parts are empty. For a non-empty folder without a trailing '/' and a non-empty name, it is folder + "/" + name. |
| Geometry.Half | wallhaven/cli.go:346 | Half the width, truncated toward zero: within one of x/2 on the side of zero. |
| Geometry.SttyPaneOfTerminal | wallhaven/cli.go:336-349 | For `stty size` output "rows cols\n", the pane is half the columns wide and three rows less than the terminal high. |
| Geometry.TputPaneOfTerminal | wallhaven/cli.go:353-368 | For `tput cols` and `tput lines` outputs "cols\n" and "rows\n", the pane is the same half-width, three-rows-fewer pane. |
| Geometry.ProbeOrder | wallhaven/cli.go:331-371 | stty output with exactly two fields wins. Otherwise tput is used when both of its commands succeed. The probe fails exactly when neither holds. |
| Geometry.SixelCellsFallback | wallhaven/cli.go:249-262 | The probed size when probing succeeds. Otherwise both FZF variables when both are set; "80"x"24" when FZF_PREVIEW_LINES is unset; and the empty strings when only FZF_PREVIEW_COLUMNS is unset. |
| Geometry.PixelsOfCells | wallhaven/cli.go:374-395 | A numeric cell count becomes that count times 9 (8 under iTerm.app) across and times 18 (16) down, less five percent, and reads back as that number. |
| Geometry.PixelsMonotone | wallhaven/cli.go:385-393 | More cells never give fewer pixels, in either direction. |
| Geometry.NonNumericCells | wallhaven/cli.go:385-386 | Cell sizes that are not numbers count as zero cells, and so give "0" by "0" pixels. |
| Geometry.Pad | wallhaven/cli.go:392-393 | The padding keeps a value's sign and never increases its size. |
| Geometry.PadMonotone | wallhaven/cli.go:392-393 | The padding is monotone. |
| Numbers.AtoiItoa | wallhaven/cli.go:341-348 | `strconv.Atoi` reads back exactly the 64-bit integer `strconv.Itoa` wrote. |
| Numbers.NonNumeralIsZero | wallhaven/cli.go:385-386 | Text that is not an optionally signed run of digits parses to 0, its error being dropped, for texts of up to 20 characters. |
| Numbers.Atoi | wallhaven/cli.go:341-342 | The parsed value always lies in the 64-bit range. |
| Numbers.Itoa | wallhaven/cli.go:348 | The text is digits, after a '-' exactly for a negative number. |
| Numbers.Wrap64 | wallhaven/cli.go:345 | 64-bit arithmetic: the result lies in range, equals the exact value modulo 2^64, and equals it when that is in range. |
| Text.Fields | wallhaven/cli.go:337 | Every field of the split output is a non-empty run of non-space characters. |
| Text.TwoFields | wallhaven/cli.go:337-338 | Output shaped "rows cols" followed by space splits into exactly those two fields. |
| Text.TrimWord | wallhaven/cli.go:360-361 | A number followed by trailing space (such as a newline) trims to the number. |
| Selection.NavLines | wallhaven/cli.go:21-27 | Computes the navigation lines: "Next page -->" while the last page lies beyond the current one, then "Previous page <--" after page 1. |
| Selection.Selections | wallhaven/cli.go:21-32 | Computes the menu of a page: the navigation lines, then one line per image. |
| Selection.StepOf | wallhaven/cli.go:58-64 | Computes how a chosen line is read: forward when it contains "-->" (tested first), back when it contains "<--", a pick otherwise. |
| Selection.PageAfter | wallhaven/cli.go:58-64 | Computes the page after a chosen line: page+1, page-1, or the same page for a pick. |
| Selection.Browsing | wallhaven/cli.go:47-65 | Computes the paging loop from a page: rounds of `RoundAt` until one ends it, with the actions of every round in order. |
| Collections.OnePage | wallhaven/cli.go:126-147 | Computes one page of the `--all` mode: a failed fetch or an empty page ends it with an error; otherwise the page's images are saved in order, a save error ends it, and it goes on while the last page lies ahead and succeeds otherwise. |
| Collections.Walking | wallhaven/cli.go:124-148 | Computes the `--all` mode from a page: `OnePage` after `OnePage`, one page further each time, for at most `fuel` pages. |
| Collections.CollectionRun | wallhaven/cli.go:99-187 | Computes the `collection` command: list, empty check, menu, ID, then the `--all` mode or the paging loop, the whole match and the save. |
| Previews.SixelTerminal | wallhaven/cli.go:399-415 | Decides a sixel terminal: TERM contains one of the six allowlisted names, or SIXEL_SUPPORT is "1". |
| Previews.CapabilityOf | wallhaven/cli.go:221-227 | Computes the tier: kitty when KITTY_WINDOW_ID is set, else sixel on a sixel terminal, else chafa. |
| Previews.SixelConverter | wallhaven/cli.go:271-289 | Computes the sixel converter: img2sixel when found, else magick, else the "no converter" error. |
| Previews.TempFile | wallhaven/cli.go:264-266 | Computes the temporary file: the last '/'-separated part of the URL joined to the temporary folder. |
| Previews.KittyCommand | wallhaven/cli.go:229-239 | Computes the `kitty icat` command on the remote URL, placed at the FZF size. |
| Previews.Img2SixelCommand | wallhaven/cli.go:273-277 | Computes the img2sixel command at the pixel width on the temporary file. |
| Previews.MagickCommand | wallhaven/cli.go:280-286 | Computes the ImageMagick command resizing the temporary file into the pixel box and writing sixel. |
| Previews.ChafaCommand | wallhaven/cli.go:307-312 | Computes the chafa command on the temporary file at the FZF size, clearing first. |
| Previews.Finish | wallhaven/cli.go:315-327 | Computes the end of a preview: run the command; its failure is the result; on success the file, when there is one, is removed and the removal's result is the result. |
| Previews.SixelPixels | wallhaven/cli.go:249-269 | Computes the pane size in pixels: the probed cells, or the fallback chain, converted by `CellsToPixels`. |
| Previews.SixelPlan | wallhaven/cli.go:241-289 | Computes the sixel case of the switch: download, then the converter, or the error that stops it. |
| Previews.ChafaPlan | wallhaven/cli.go:291-312 | Computes the chafa case of the switch: chafa on the PATH, then the download, then the chafa command. |
| Previews.PlanOf | wallhaven/cli.go:207-313 | Computes the switch of `Preview`: the no-op for a navigation line, the URL, then the command and file of the tier. |
| Previews.PreviewOf | wallhaven/cli.go:207-328 | Computes the whole preview: the plan of the switch, then `Finish`. |
| Geometry.PaneSize | wallhaven/cli.go:345-348 | Computes the pane of a terminal: half its width and its height less three, written as decimal strings. |
| Geometry.SttyPane | wallhaven/cli.go:336-349 | Computes the pane from `stty size` output, used only when it has exactly two fields. |
| Geometry.TputPane | wallhaven/cli.go:359-368 | Computes the pane from the trimmed `tput cols` and `tput lines` outputs when both commands succeeded. |
| Geometry.PreviewPaneDimensions | wallhaven/cli.go:331-371 | Computes `getPreviewPaneDimensions`: stty, then tput, else the error (None). |
| Geometry.SixelCells | wallhaven/cli.go:249-262 | Computes the cells the sixel branch uses: the probed size, else the FZF variables, "80"x"24", or the empty strings. |
| Geometry.CellRatio | wallhaven/cli.go:376-383 | Computes the pixels per cell: 8x16 under iTerm.app, 9x18 otherwise. |
| Geometry.CellsToPixels | wallhaven/cli.go:374-395 | Computes `cellsToPixels`: the parsed cells times the cell size in 64-bit arithmetic, padded, written as decimal strings. |
| Text.LastSegment | wallhaven/cli.go:264-265 | Computes the last element of splitting the URL at '/'. |
| Text.JoinPath | wallhaven/cli.go:266 | Computes `filepath.Join` of the folder and the name, without `Clean`. |
| Text.TrimSpace | wallhaven/cli.go:360-361 | Computes `strings.TrimSpace`: the text without leading and trailing space, and with no space at either end. |
| Text.Entry | wallhaven/cli.go:30 | Computes a menu line "caption (ref)", which always ends in ')'. |
| Text.Contains | wallhaven/cli.go:58-60 | Decides `strings.Contains`: the substring occurs at some offset; the empty substring occurs in every string. |
| Selection.HasMarker | wallhaven/cli.go:213 | Decides whether a line contains "-->" or "<--". |
| Selection.Offered | wallhaven/cli.go:17-34 | Computes the fzf call of `search`: none for a page without images, so the empty-page error comes before the selector is called; otherwise one menu with previews. |
| Previews.Carry | wallhaven/cli.go:315-327 | Computes the end of `Preview` from the switch's plan: an early return as it stands, otherwise the command is run and the file cleaned up as `Finish` says. |
| Text.TrailingParen | wallhaven/cli.go:63 | Computes the text between the last '(' and the closing ')' of a line: the reading of the URL or ID that the round trips assume for the regular expression of lines 63, 122, 174 and 224. |

## Left out

- Process spawning and fzf I/O are not modelled; fzf's answers are a sequence of replies. This covers `ShowSelection` (lines 189-205): it joins the lines, runs fzf and trims its output. A reply stands for the trimmed output.
- `Edit` (lines 89-97) only runs the configured editor, and is not modelled.
- The `Printf` progress messages and the cobra command wiring are not modelled.
- `SearchAPI`, `CollectionsAPI`, `CollectionAPI`, `DLSave` and `DownloadAPI` are defined outside `wallhaven/cli.go` and are not part of this model. They are parameters: a page function, a list of collections, a save function.
  - The search query (`strings.Join(args, " ")`) and the user name only select which function is passed; the collection API is curried with the chosen ID.
- The regular expression `re` is defined outside the file and is not part of this model. Its first group is the parameter `extract`, and its whole match (line 178) is the parameter `wholeMatch`.
  - None stands for a failed match, where Go's indexing panics. The model reports that as the error `NoMatch`.
  - The round trips (`Text.EntryRoundTrip`, `Selection.PickingAnImage`) take `TrailingParen`, the text inside the trailing parentheses, as an assumption about what `re` extracts.
- The `stty` and `tput` commands themselves are not run. Their outputs, or their failure, are the `Probes` parameter, and they are not recorded as events.
- `exec.LookPath`, `command.Run` and `os.Remove` are the parameters `lookPath`, `run` and `remove`. Output wiring is not modelled.
- The dead appends to `selections` in `Collection` (lines 159-162) have no observable effect and are left out.
- Geometry.Pad: `int(float64(x) * 0.95)` is modelled as 19x/20 truncated toward zero. This agrees with the float computation for |x| below 2^45, an argument the model does not prove. Floating point is not modelled.
- Geometry.Half: `int(float64(x) * 0.5)` is modelled as halving truncated toward zero. This is exact for widths up to 2^53.
- Geometry.PixelsOfCells: stated for cell counts from 0 to `MaxCells` (2^63 / 18), where no 64-bit product wraps. The model does compute the wrap-around beyond that (`Wrap64`).
- Geometry.PixelsMonotone: states that the pixels after the padding are monotone in the cell counts, for cell counts from 0 to `MaxCells` only.
- Numbers.NonNumeralIsZero: stated for texts of up to 20 characters. A longer text can start with a run of digits that overflows (more than 20 digits, or 20 whose value reaches 2^64) before the first non-digit is read, and `Atoi` then returns a bound of the range instead of 0. `Atoi` itself models both behaviours.
- Geometry.NonNumericCells: the same 20-character bound.
- Text.JoinPath: `filepath.Join` is modelled without `filepath.Clean`: "." and ".." parts and repeated '/' are not simplified. The `folder + "/" + name` stated by `Text.JoinPathShape` and `Previews.TempFileName` is Go's result only for a temporary folder that is already clean.
- Collections.Walking: the `--all` mode runs for at most `fuel` pages and ends `Pending` when the fuel runs out. The source loops for as long as the API reports later pages.
- Selection.Browsing: the paging loop ends `OutOfReplies` when fzf's replies are used up. The source would keep calling fzf.
- Selection.PageStaysInRange: stated for replies taken from the menu shown and for pages whose image lines carry no navigation marker. An image line containing "-->" or "<--" would be read as navigation, as in the source.

=== FILE: collection.dfy ===
/** The `collection` command: the choice of one of a user's collections,
    then either the `--all` mode, which saves every image of every page, or
    the paging loop shared with `search`. The web API, the downloader, fzf
    and the regular expression are parameters. */
module Collections {
  import opened Common
  import opened Text
  import opened Selection
  import opened Downloads

  /** One collection of a user: its ID and its Label (`caption`, as `label` is
      a Dafny keyword). */
  datatype Info = Info(id: string, caption: string)

  /** The menu of a user's collections: "<label> (<id>)" per collection, in
      order. */
  function CollectionLines(cols: seq<Info>): (lines: seq<string>)
    ensures |lines| == |cols|
    ensures forall i :: 0 <= i < |cols| ==> lines[i] == Entry(cols[i].caption, cols[i].id)
  {
    if cols == [] then [] else [Entry(cols[0].caption, cols[0].id)] + CollectionLines(cols[1..])
  }

  /** The image URLs of a page, in order. */
  function ImageUrls(images: seq<Image>): (urls: seq<string>)
    ensures |urls| == |images|
    ensures forall i :: 0 <= i < |images| ==> urls[i] == images[i].url
  {
    if images == [] then [] else [images[0].url] + ImageUrls(images[1..])
  }

  /** The state of the `--all` mode when it stops, and the actions taken. */
  datatype Walk = Walk(outcome: Outcome, page: int, trace: seq<Event>)

  function Ahead(events: seq<Event>, w: Walk): Walk
  {
    w.(trace := events + w.trace)
  }

  lemma AheadTwice(first: seq<Event>, second: seq<Event>, w: Walk)
    ensures Ahead(first, Ahead(second, w)) == Ahead(first + second, w)
  {
    assert first + (second + w.trace) == first + second + w.trace;
  }

  /** What one page of the `--all` mode comes to: the mode goes on to the
      next page after `events`, or it ends with `outcome`. */
  datatype PageEnd = Onward(events: seq<Event>) | Final(outcome: Outcome, events: seq<Event>)

  /** One page of the `--all` mode: fetch it, fail on an empty one, save its
      images in order, and go on while the last page lies ahead. */
  function OnePage(fetch: int -> Result<ImagesResponse>, save: string -> Status, page: int): PageEnd
  {
    match fetch(page)
    case Failure(e) => Final(Failed(e), [Fetch(page)])
    case Success(resp) =>
      if |resp.images| == 0 then Final(Failed(EmptyCollection), [Fetch(page)])
      else
        var saved := Saving(ImageUrls(resp.images), save);
        var events := [Fetch(page)] + saved.trace;
        if saved.status.Err? then Final(Failed(saved.status.error), events)
        else if resp.lastPage > page then Onward(events)
        else Final(Done, events)
  }

  /** The `--all` mode from `page` on, for at most `fuel` pages. */
  function Walking(fetch: int -> Result<ImagesResponse>, save: string -> Status, page: int, fuel: nat): Walk
    decreases fuel
  {
    if fuel == 0 then Walk(Pending, page, [])
    else
      match OnePage(fetch, save, page)
      case Final(outcome, events) => Walk(outcome, page, events)
      case Onward(events) => Ahead(events, Walking(fetch, save, page + 1, fuel - 1))
  }

  /** The body of the loop `for {}` of the `--all` mode, on one page. */
  method SavePage(fetch: int -> Result<ImagesResponse>, save: string -> Status, page: int) returns (r: PageEnd)
    ensures r == OnePage(fetch, save, page)
  {
    var images := fetch(page);
    if images.Failure? {
      return Final(Failed(images.error), [Fetch(page)]);
    }
    if |images.value.images| == 0 {
      return Final(Failed(EmptyCollection), [Fetch(page)]);
    }
    var status, saves := SaveEach(ImageUrls(images.value.images), save);
    var events := [Fetch(page)] + saves;
    if status.Err? {
      return Final(Failed(status.error), events);
    }
    if images.value.lastPage > page {
      return Onward(events);
    }
    return Final(Done, events);
  }

  /** The loop `for {}` of the `--all` mode, with the page number as the
      variable it updates. */
  method DownloadAll(fetch: int -> Result<ImagesResponse>, save: string -> Status, start: int, fuel: nat)
    returns (w: Walk)
    ensures w == Walking(fetch, save, start, fuel)
  {
    var page := start;
    var trace: seq<Event> := [];
    var left := fuel;
    while left > 0
      invariant Walking(fetch, save, start, fuel) == Ahead(trace, Walking(fetch, save, page, left))
      decreases left
    {
      var r := SavePage(fetch, save, page);
      if r.Final? {
        return Walk(r.outcome, page, trace + r.events);
      }
      AheadTwice(trace, r.events, Walking(fetch, save, page + 1, left - 1));
      trace := trace + r.events;
      page := page + 1;
      left := left - 1;
    }
    return Walk(Pending, page, trace);
  }

  /** The actions of the `--all` mode on one page that it saves in full. */
  ghost function PageSaved(fetch: int -> Result<ImagesResponse>, p: int): seq<Event>
  {
    [Fetch(p)] + (if fetch(p).Success? then Saves(ImageUrls(fetch(p).value.images)) else [])
  }

  /** The actions on the pages `from` to `to`, one page after another. */
  ghost function PagesSaved(fetch: int -> Result<ImagesResponse>, from: int, to: int): seq<Event>
    decreases to - from
  {
    if from > to then [] else PageSaved(fetch, from) + PagesSaved(fetch, from + 1, to)
  }

  /** When the `--all` mode succeeds, it fetched the pages from the first
      one to the one it stopped at, one after another; every page had
      images and a last page ahead of it, except the final page, whose last
      page was not ahead. */
  lemma {:induction false} WalkDone(fetch: int -> Result<ImagesResponse>, save: string -> Status,
                                    page: int, fuel: nat)
    requires Walking(fetch, save, page, fuel).outcome == Done
    ensures var w := Walking(fetch, save, page, fuel);
      && page <= w.page < page + fuel
      && (forall p :: page <= p <= w.page ==> fetch(p).Success? && |fetch(p).value.images| > 0)
      && (forall p :: page <= p < w.page ==> fetch(p).value.lastPage > p)
      && fetch(w.page).value.lastPage <= w.page
    decreases fuel
  {
    var resp := fetch(page).value;
    var saved := Saving(ImageUrls(resp.images), save);
    if saved.status.Ok? && resp.lastPage > page {
      WalkDone(fetch, save, page + 1, fuel - 1);
    }
  }

  /** When the `--all` mode succeeds, it saved every image of every page it
      fetched, in order. */
  lemma {:induction false} WalkDoneSavesAll(fetch: int -> Result<ImagesResponse>, save: string -> Status,
                                            page: int, fuel: nat)
    requires Walking(fetch, save, page, fuel).outcome == Done
    ensures var w := Walking(fetch, save, page, fuel);
      w.trace == PagesSaved(fetch, page, w.page)
    decreases fuel
  {
    var resp := fetch(page).value;
    var saved := Saving(ImageUrls(resp.images), save);
    if saved.status.Ok? {
      SavingAllOk(ImageUrls(resp.images), save);
      var events := [Fetch(page)] + saved.trace;
      assert events == PageSaved(fetch, page);
      if resp.lastPage > page {
        var rest := Walking(fetch, save, page + 1, fuel - 1);
        assert Walking(fetch, save, page, fuel) == Ahead(events, rest);
        WalkDoneSavesAll(fetch, save, page + 1, fuel - 1);
        WalkMovesForward(fetch, save, page + 1, fuel - 1);
        assert PagesSaved(fetch, page, rest.page) == events + PagesSaved(fetch, page + 1, rest.page);
      } else {
        assert Walking(fetch, save, page, fuel) == Walk(Done, page, events);
        assert PagesSaved(fetch, page, page) == events + [];
      }
    }
  }

  /** The `--all` mode stops on its first page or a later one. */
  lemma {:induction false} WalkMovesForward(fetch: int -> Result<ImagesResponse>, save: string -> Status,
                                            page: int, fuel: nat)
    ensures Walking(fetch, save, page, fuel).page >= page
    decreases fuel
  {
    if fuel > 0 && fetch(page).Success? && |fetch(page).value.images| > 0 {
      WalkMovesForward(fetch, save, page + 1, fuel - 1);
    }
  }

  /** A run of saves that ends well has saved every URL. */
  lemma SavingAllOk(urls: seq<string>, save: string -> Status)
    requires Saving(urls, save).status.Ok?
    ensures Saving(urls, save).trace == Saves(urls)
  {
    if exists k :: 0 <= k < |urls| && save(urls[k]).Err? {
      var k := FirstError(urls, save);
      SavingStopsAtFirstError(urls, save, k);
    } else {
      SavingAllSucceed(urls, save);
    }
  }

  /** The index of the first URL whose save fails. */
  ghost function FirstError(urls: seq<string>, save: string -> Status): (k: nat)
    requires exists k :: 0 <= k < |urls| && save(urls[k]).Err?
    ensures k < |urls| && save(urls[k]).Err? && forall i :: 0 <= i < k ==> save(urls[i]).Ok?
    decreases |urls|
  {
    if save(urls[0]).Err? then 0
    else
      assert exists k :: 0 <= k < |urls[1..]| && save(urls[1..][k]).Err? by {
        var k :| 0 <= k < |urls| && save(urls[k]).Err?;
        assert save(urls[1..][k - 1]).Err?;
      }
      1 + FirstError(urls[1..], save)
  }

  /** When the `--all` mode fails, its last action is the one that failed: a
      fetch that failed or brought an empty page, or a save. */
  lemma {:induction false} WalkFails(fetch: int -> Result<ImagesResponse>, save: string -> Status,
                                     page: int, fuel: nat)
    requires Walking(fetch, save, page, fuel).outcome.Failed?
    ensures var w := Walking(fetch, save, page, fuel);
      var e := w.outcome.error;
      && |w.trace| > 0
      && match w.trace[|w.trace| - 1]
         case Fetch(p) =>
           p == w.page && (fetch(p) == Failure(e) || (fetch(p).Success? && |fetch(p).value.images| == 0 && e == EmptyCollection))
         case Save(u) => save(u) == Err(e)
         case _ => false
    decreases fuel
  {
    if fuel > 0 && fetch(page).Success? && |fetch(page).value.images| > 0 {
      var resp := fetch(page).value;
      var saved := Saving(ImageUrls(resp.images), save);
      if saved.status.Ok? && resp.lastPage > page {
        WalkFails(fetch, save, page + 1, fuel - 1);
      }
    }
  }

  /** The `collection` command for `user`, with the answer of the
      collections API and the collection API as parameters: a failed or empty
      list of collections ends it before any page is fetched; otherwise the
      chosen collection's id is read out of fzf's reply, and the `--all` mode
      or the paging loop runs on its pages, the URL chosen being matched once
      more (the whole match) before it is saved. */
  function CollectionRun(user: string, collections: Result<seq<Info>>,
                         collectionApi: (string, int) -> Result<ImagesResponse>,
                         save: string -> Status, extract: string -> Option<string>,
                         wholeMatch: string -> Option<string>,
                         replies: seq<Reply>, all: bool, start: int, fuel: nat): Run
  {
    var listed := [ListCollections(user)];
    match collections
    case Failure(e) => Run(Failed(e), listed)
    case Success(cols) =>
      if |cols| == 0 then Run(Failed(NoCollections), listed)
      else
        var shown := listed + [Offer(CollectionLines(cols), false)];
        if replies == [] then Run(Pending, shown)
        else
          match replies[0]
          case Cancelled(reason) => Run(Failed(Foreign(reason)), shown)
          case Chose(picked) =>
            match extract(picked)
            case None => Run(Failed(NoMatch), shown)
            case Some(id) =>
              var fetch := p => collectionApi(id, p);
              if all then
                var w := Walking(fetch, save, start, fuel);
                Run(w.outcome, shown + w.trace)
              else
                var b := Browsing(fetch, extract, replies[1..], start);
                match b.end
                case Stopped(e) => Run(Failed(e), shown + b.trace)
                case OutOfReplies => Run(Pending, shown + b.trace)
                case Chosen(url) =>
                  match wholeMatch(url)
                  case None => Run(Failed(NoMatch), shown + b.trace)
                  case Some(imageUrl) =>
                    var status := save(imageUrl);
                    Run(if status.Ok? then Done else Failed(status.error), shown + b.trace + [Save(imageUrl)])
  }

  /** `Collection`, step by step. */
  method Collection(user: string, collections: Result<seq<Info>>,
                    collectionApi: (string, int) -> Result<ImagesResponse>,
                    save: string -> Status, extract: string -> Option<string>,
                    wholeMatch: string -> Option<string>,
                    replies: seq<Reply>, all: bool, start: int, fuel: nat)
    returns (outcome: Outcome, trace: seq<Event>)
    ensures Run(outcome, trace) ==
      CollectionRun(user, collections, collectionApi, save, extract, wholeMatch, replies, all, start, fuel)
  {
    var selections: seq<string> := [];
    trace := [ListCollections(user)];
    if collections.Failure? {
      return Failed(collections.error), trace;
    }
    var cols := collections.value;
    if |cols| == 0 {
      return Failed(NoCollections), trace;
    }
    for i := 0 to |cols|
      invariant |selections| == i
      invariant forall k :: 0 <= k < i ==> selections[k] == Entry(cols[k].caption, cols[k].id)
    {
      selections := selections + [Entry(cols[i].caption, cols[i].id)];
    }
    assert selections == CollectionLines(cols);
    trace := trace + [Offer(selections, false)];
    if replies == [] {
      return Pending, trace;
    }
    if replies[0].Cancelled? {
      return Failed(Foreign(replies[0].reason)), trace;
    }
    var found := extract(replies[0].line);
    if found.None? {
      return Failed(NoMatch), trace;
    }
    var id := found.value;
    var fetch := p => collectionApi(id, p);
    if all {
      var w := DownloadAll(fetch, save, start, fuel);
      return w.outcome, trace + w.trace;
    }
    var b := SelectImage(fetch, extract, replies[1..], start);
    trace := trace + b.trace;
    match b.end {
      case Stopped(e) =>
        return Failed(e), trace;
      case OutOfReplies =>
        return Pending, trace;
      case Chosen(url) =>
        var whole := wholeMatch(url);
        if whole.None? {
          return Failed(NoMatch), trace;
        }
        var imageUrl := whole.value;
        var status := save(imageUrl);
        trace := trace + [Save(imageUrl)];
        if status.Err? {
          return Failed(status.error), trace;
        }
        return Done, trace;
    }
  }

  /** A user without collections, or a failed lookup of the collections, ends
      the command before any page is fetched or any menu is shown. */
  lemma NoPageWithoutCollections(user: string, collections: Result<seq<Info>>,
                                 collectionApi: (string, int) -> Result<ImagesResponse>,
                                 save: string -> Status, extract: string -> Option<string>,
                                 wholeMatch: string -> Option<string>,
                                 replies: seq<Reply>, all: bool, start: int, fuel: nat)
    requires collections.Failure? || collections == Success([])
    ensures var r := CollectionRun(user, collections, collectionApi, save, extract, wholeMatch, replies, all, start, fuel);
      && r.trace == [ListCollections(user)]
      && r.outcome == Failed(if collections.Failure? then collections.error else NoCollections)
  {
  }
}

=== FILE: common.dfy ===
/** Values shared by every part of the model: optional values, results, the
    errors the command line reports, and the external actions it performs. */
module Common {

  datatype Option<+T> = None | Some(value: T)

  /** The errors of wallhaven/cli.go. The first five carry fixed messages;
      `PreviewFailed` wraps the error of the preview command; `NoMatch` stands
      for the run-time panic of indexing the empty result of a regular
      expression that did not match; `Foreign` is an error handed back
      unchanged by code outside the model (the web API, the downloader, fzf,
      removing a file). */
  datatype Error =
    | NoImages
    | NoCollections
    | EmptyCollection
    | NoConverter
    | NoPreviewMethod
    | PreviewFailed(cause: string)
    | NoMatch
    | Foreign(msg: string)

  /** The text each error prints. For `NoMatch` the text only stands for
      Go's run-time panic, which ends the program instead of returning an
      error. */
  function Message(e: Error): string
  {
    match e
    case NoImages => "No collections from this user."
    case NoCollections => "This user has no collection."
    case EmptyCollection => "This collection has no images."
    case NoConverter => "sixel support detected but no converter found (install libsixel or imagemagick)"
    case NoPreviewMethod => "no supported image preview method found"
    case PreviewFailed(cause) => "failed to execute preview command: " + cause
    case NoMatch => "runtime error: index out of range"
    case Foreign(msg) => msg
  }

  /** A Go `error` result: nil or an error. */
  datatype Status = Ok | Err(error: Error)

  /** How a command of the command line ends: it returned nil, it returned an
      error, or the model ran out of selector replies (or of pages to allow)
      while the command was still going. */
  datatype Outcome = Done | Failed(error: Error) | Pending

  /** How a command ended, with the external actions it took. */
  datatype Run = Run(outcome: Outcome, trace: seq<Event>)

  /** A Go `(value, error)` pair. */
  datatype Result<+T> = Success(value: T) | Failure(error: Error)

  /** An external program with its argument list (argv[1..]). */
  datatype Command = Command(program: string, args: seq<string>)

  /** The external actions of the command line, in the order they happen. */
  datatype Event =
    | ListCollections(user: string)     // the list of a user's collections
    | Fetch(page: int)                  // one page from the search or collection API
    | Offer(lines: seq<string>, preview: bool) // one call of fzf with these lines, with or without previews
    | Save(url: string)                 // download into the default save location
    | SaveTemp(url: string, dir: string) // download into the temporary folder
    | Exec(cmd: Command)                // run a preview command
    | Remove(path: string)              // delete a file
}

=== FILE: downloads.dfy ===
/** Saving a list of images one after another, stopping at the first error:
    the `download` command and the inner loop of the `--all` mode of
    `collection`. The downloader itself is a parameter. */
module Downloads {
  import opened Common

  /** How a run of saves ended, and the saves attempted. */
  datatype Saved = Saved(status: Status, trace: seq<Event>)

  /** One Save event per URL, in order. */
  function Saves(urls: seq<string>): (events: seq<Event>)
    ensures |events| == |urls|
    ensures forall i :: 0 <= i < |urls| ==> events[i] == Save(urls[i])
  {
    if urls == [] then [] else [Save(urls[0])] + Saves(urls[1..])
  }

  /** Saving `urls` in order with `save`: every URL is tried until one fails,
      and that error is the result. */
  function Saving(urls: seq<string>, save: string -> Status): (r: Saved)
    ensures |r.trace| <= |urls|
    ensures r.status.Err? ==>
      |r.trace| > 0 && r.trace[|r.trace| - 1].Save? && save(r.trace[|r.trace| - 1].url) == r.status
    decreases |urls|
  {
    if urls == [] then Saved(Ok, [])
    else
      var first := save(urls[0]);
      if first.Err? then Saved(first, [Save(urls[0])])
      else
        var rest := Saving(urls[1..], save);
        Saved(rest.status, [Save(urls[0])] + rest.trace)
  }

  /** The loop over the URLs, saving each in turn. */
  method SaveEach(urls: seq<string>, save: string -> Status) returns (status: Status, trace: seq<Event>)
    ensures Saved(status, trace) == Saving(urls, save)
  {
    trace := [];
    for i := 0 to |urls|
      invariant trace == Saves(urls[..i])
      invariant forall k :: 0 <= k < i ==> save(urls[k]).Ok?
    {
      var saved := save(urls[i]);
      SavesStep(urls, i);
      trace := trace + [Save(urls[i])];
      if saved.Err? {
        SavingStopsAtFirstError(urls, save, i);
        return saved, trace;
      }
    }
    assert urls[..|urls|] == urls;
    SavingAllSucceed(urls, save);
    status := Ok;
  }

  lemma {:induction false} SavesAppend(a: seq<string>, b: seq<string>)
    ensures Saves(a + b) == Saves(a) + Saves(b)
  {
    assert |Saves(a + b)| == |Saves(a) + Saves(b)|;
    forall i | 0 <= i < |a| + |b|
      ensures Saves(a + b)[i] == (Saves(a) + Saves(b))[i]
    {
      if i < |a| {
        assert (a + b)[i] == a[i];
      } else {
        assert (a + b)[i] == b[i - |a|];
      }
    }
  }

  /** One more URL saved adds one Save event. */
  lemma SavesStep(urls: seq<string>, i: nat)
    requires i < |urls|
    ensures Saves(urls[..i + 1]) == Saves(urls[..i]) + [Save(urls[i])]
  {
    assert urls[..i + 1] == urls[..i] + [urls[i]];
    SavesAppend(urls[..i], [urls[i]]);
  }

  /** The `download` command: each argument is handed to the downloader in
      turn, and the first error ends the command. */
  method Download(download: string -> Status, args: seq<string>) returns (outcome: Outcome, trace: seq<Event>)
    ensures trace == Saving(args, download).trace
    ensures outcome == (if Saving(args, download).status.Ok? then Done else Failed(Saving(args, download).status.error))
  {
    var status;
    status, trace := SaveEach(args, download);
    outcome := if status.Ok? then Done else Failed(status.error);
  }

  /** When every save succeeds, every URL is saved, in order. */
  lemma {:induction false} SavingAllSucceed(urls: seq<string>, save: string -> Status)
    requires forall i :: 0 <= i < |urls| ==> save(urls[i]).Ok?
    ensures Saving(urls, save) == Saved(Ok, Saves(urls))
    decreases |urls|
  {
    if urls != [] {
      assert save(urls[0]).Ok?;
      SavingAllSucceed(urls[1..], save);
    }
  }

  /** A run of saves stops exactly at the first URL whose save fails, after
      saving every URL before it. */
  lemma {:induction false} SavingStopsAtFirstError(urls: seq<string>, save: string -> Status, k: nat)
    requires k < |urls| && save(urls[k]).Err? && forall i :: 0 <= i < k ==> save(urls[i]).Ok?
    ensures Saving(urls, save) == Saved(save(urls[k]), Saves(urls[..k + 1]))
    decreases k
  {
    if k > 0 {
      var rest := urls[1..];
      assert rest[k - 1] == urls[k];
      assert forall i :: 0 <= i < k - 1 ==> rest[i] == urls[i + 1];
      SavingStopsAtFirstError(rest, save, k - 1);
      assert urls[..k + 1][1..] == rest[..k];
      assert save(urls[0]).Ok?;
    } else {
      assert urls[..1] == [urls[0]];
    }
  }
}

=== FILE: geometry.dfy ===
/** The size of the fzf preview pane in terminal cells and its conversion to
    pixels: getPreviewPaneDimensions, the fallback chain of the sixel branch
    of Preview, and cellsToPixels. Sizes travel as decimal strings, as in the
    source; the outputs of `stty` and `tput` are parameters. */
module Geometry {
  import opened Common
  import opened Text
  import opened Numbers

  /** A width and a height, as the decimal strings cli.go passes around. */
  datatype Dims = Dims(width: string, height: string)

  /** The outputs of the terminal probes; None when the command failed. */
  datatype Probes = Probes(stty: Option<string>, tputCols: Option<string>, tputLines: Option<string>)

  /** Pixels per terminal cell. */
  datatype Ratio = Ratio(cellWidth: int, cellHeight: int)

  /** int(float64(x) * 0.5): half of `x`, truncated toward zero. */
  function Half(x: int): (r: int)
    ensures x >= 0 ==> 0 <= x - 2 * r <= 1
    ensures x < 0 ==> 0 <= 2 * r - x <= 1
  {
    if x >= 0 then x / 2 else -((-x) / 2)
  }

  /** The preview pane of a terminal of the given size, as decimal strings:
      half the width, and the height less three rows of fzf's own interface. */
  function PaneSize(totalWidth: int, totalHeight: int): Dims
  {
    Dims(Itoa(Half(totalWidth)), Itoa(Wrap64(totalHeight - 3)))
  }

  /** Method 1: the output of `stty size` ("rows cols"); it is used only when
      it has exactly two fields. */
  function SttyPane(output: string): Option<Dims>
  {
    var parts := Fields(output);
    if |parts| == 2 then Some(PaneSize(Atoi(parts[1]), Atoi(parts[0]))) else None
  }

  /** Method 2: the outputs of `tput cols` and `tput lines`; both must succeed. */
  function TputPane(cols: Option<string>, lines: Option<string>): Option<Dims>
  {
    if cols.Some? && lines.Some? then
      Some(PaneSize(Atoi(TrimSpace(cols.value)), Atoi(TrimSpace(lines.value))))
    else None
  }

  /** getPreviewPaneDimensions: stty, then tput; None stands for its error. */
  function PreviewPaneDimensions(p: Probes): Option<Dims>
  {
    if p.stty.Some? && SttyPane(p.stty.value).Some? then SttyPane(p.stty.value)
    else TputPane(p.tputCols, p.tputLines)
  }

  /** The cells the sixel branch of Preview works with: the probed size; when
      probing fails, the FZF_PREVIEW_* variables if both are set, "80" by "24"
      if FZF_PREVIEW_LINES is unset, and otherwise the empty strings the
      failed probe left behind. */
  function SixelCells(probed: Option<Dims>, fzfLines: string, fzfColumns: string): Dims
  {
    match probed
    case Some(d) => d
    case None =>
      if fzfLines != "" then
        if fzfColumns != "" then Dims(fzfColumns, fzfLines) else Dims("", "")
      else Dims("80", "24")
  }

  /** The cell size in pixels: 8 by 16 under iTerm2, 9 by 18 otherwise. */
  function CellRatio(termProgram: string): Ratio
  {
    if termProgram == "iTerm.app" then Ratio(8, 16) else Ratio(9, 18)
  }

  /** int(float64(x) * 0.95): nineteen twentieths of `x`, truncated toward zero. */
  function Pad(x: int): (r: int)
    ensures x >= 0 ==> 0 <= r <= x
    ensures x <= 0 ==> x <= r <= 0
  {
    if x >= 0 then 19 * x / 20 else -(19 * (-x) / 20)
  }

  /** cellsToPixels: the cells, parsed, times the pixels per cell (in 64-bit
      arithmetic), less five percent. */
  function CellsToPixels(cells: Dims, termProgram: string): Dims
  {
    var ratio := CellRatio(termProgram);
    Dims(Itoa(Pad(Wrap64(Atoi(cells.width) * ratio.cellWidth))),
         Itoa(Pad(Wrap64(Atoi(cells.height) * ratio.cellHeight))))
  }

  /** The largest cell count whose pixel size does not overflow. */
  const MaxCells: int := MaxInt64 / 18

  lemma {:induction false} PadMonotone(x: int, y: int)
    requires x <= y
    ensures Pad(x) <= Pad(y)
  {
    if x < 0 && y >= 0 {
      assert Pad(x) <= 0 <= Pad(y);
    }
  }

  lemma ItoaIsWord(n: int)
    ensures IsWord(Itoa(n))
  {
    var s := Itoa(n);
    forall i | 0 <= i < |s|
      ensures !IsSpace(s[i])
    {
      assert IsDigit(s[i]) || s[i] == '-';
    }
  }

  /** Probing through stty: a terminal of `rows` by `cols` gives a pane of
      half the columns and three rows fewer. */
  lemma SttyPaneOfTerminal(rows: int, cols: int)
    requires IsInt64(rows) && IsInt64(cols)
    ensures var d := SttyPane(Itoa(rows) + " " + Itoa(cols) + "\n");
      d.Some? && Atoi(d.value.width) == Half(cols) && Atoi(d.value.height) == Wrap64(rows - 3)
  {
    ItoaIsWord(rows);
    ItoaIsWord(cols);
    assert AllSpace("\n");
    TwoFields(Itoa(rows), ' ', Itoa(cols), "\n");
    assert Itoa(rows) + " " + Itoa(cols) + "\n" == Itoa(rows) + [' '] + Itoa(cols) + "\n";
    AtoiItoa(rows);
    AtoiItoa(cols);
    AtoiItoa(Half(cols));
    AtoiItoa(Wrap64(rows - 3));
  }

  /** Probing through tput: the same half-width, three-rows-fewer pane. */
  lemma TputPaneOfTerminal(rows: int, cols: int)
    requires IsInt64(rows) && IsInt64(cols)
    ensures var d := TputPane(Some(Itoa(cols) + "\n"), Some(Itoa(rows) + "\n"));
      d.Some? && Atoi(d.value.width) == Half(cols) && Atoi(d.value.height) == Wrap64(rows - 3)
  {
    var c, l := Itoa(cols), Itoa(rows);
    ItoaIsWord(rows);
    ItoaIsWord(cols);
    assert AllSpace("\n");
    TrimWord(l, "\n");
    TrimWord(c, "\n");
    AtoiItoa(rows);
    AtoiItoa(cols);
    var d := PaneSize(cols, rows);
    assert TputPane(Some(c + "\n"), Some(l + "\n")) == Some(d);
    AtoiItoa(Half(cols));
    AtoiItoa(Wrap64(rows - 3));
  }

  /** The order of the probes: stty output with two fields wins; otherwise tput
      is used when both of its commands succeed; otherwise the probe fails. */
  lemma ProbeOrder(p: Probes)
    ensures p.stty.Some? && |Fields(p.stty.value)| == 2 ==>
      PreviewPaneDimensions(p) == SttyPane(p.stty.value)
    ensures (p.stty.None? || |Fields(p.stty.value)| != 2) && p.tputCols.Some? && p.tputLines.Some? ==>
      PreviewPaneDimensions(p) == TputPane(p.tputCols, p.tputLines)
    ensures PreviewPaneDimensions(p).None? <==>
      (p.stty.None? || |Fields(p.stty.value)| != 2) && (p.tputCols.None? || p.tputLines.None?)
  {
  }

  /** The fallback chain of the sixel branch. */
  lemma SixelCellsFallback(probed: Option<Dims>, fzfLines: string, fzfColumns: string)
    ensures probed.Some? ==> SixelCells(probed, fzfLines, fzfColumns) == probed.value
    ensures probed.None? && fzfLines != "" && fzfColumns != "" ==>
      SixelCells(probed, fzfLines, fzfColumns) == Dims(fzfColumns, fzfLines)
    ensures probed.None? && fzfLines == "" ==> SixelCells(probed, fzfLines, fzfColumns) == Dims("80", "24")
    ensures probed.None? && fzfLines != "" && fzfColumns == "" ==>
      SixelCells(probed, fzfLines, fzfColumns) == Dims("", "")
  {
  }

  /** For a cell count written as a number, the pixel count written out reads
      back as that count times 9 (8 under iTerm2) across and 18 (16) down,
      less five percent. */
  lemma PixelsOfCells(w: int, h: int, termProgram: string)
    requires 0 <= w <= MaxCells && 0 <= h <= MaxCells
    ensures var px := CellsToPixels(Dims(Itoa(w), Itoa(h)), termProgram);
      && Atoi(px.width) == Pad(w * (if termProgram == "iTerm.app" then 8 else 9))
      && Atoi(px.height) == Pad(h * (if termProgram == "iTerm.app" then 16 else 18))
  {
    AtoiItoa(w);
    AtoiItoa(h);
    var r := CellRatio(termProgram);
    assert 0 <= w * r.cellWidth <= MaxInt64;
    assert 0 <= h * r.cellHeight <= MaxInt64;
    AtoiItoa(Pad(w * r.cellWidth));
    AtoiItoa(Pad(h * r.cellHeight));
  }

  /** More cells never give fewer pixels. */
  lemma PixelsMonotone(w1: int, h1: int, w2: int, h2: int, termProgram: string)
    requires 0 <= w1 <= w2 <= MaxCells && 0 <= h1 <= h2 <= MaxCells
    ensures var small := CellsToPixels(Dims(Itoa(w1), Itoa(h1)), termProgram);
      var large := CellsToPixels(Dims(Itoa(w2), Itoa(h2)), termProgram);
      Atoi(small.width) <= Atoi(large.width) && Atoi(small.height) <= Atoi(large.height)
  {
    PixelsOfCells(w1, h1, termProgram);
    PixelsOfCells(w2, h2, termProgram);
    var r := CellRatio(termProgram);
    PadMonotone(w1 * r.cellWidth, w2 * r.cellWidth);
    PadMonotone(h1 * r.cellHeight, h2 * r.cellHeight);
  }

  /** A cell size that is not a number counts as zero cells. */
  lemma NonNumericCells(cells: Dims, termProgram: string)
    requires !IsNumeral(cells.width) && |cells.width| <= 20
    requires !IsNumeral(cells.height) && |cells.height| <= 20
    ensures CellsToPixels(cells, termProgram) == Dims("0", "0")
  {
    NonNumeralIsZero(cells.width);
    NonNumeralIsZero(cells.height);
  }
}

=== FILE: numbers.dfy ===
/** Go's 64-bit `int` and the conversions strconv.Atoi and strconv.Itoa, as
    wallhaven/cli.go uses them for terminal sizes (a 64-bit platform). */
module Numbers {

  const MaxInt64: int := 0x7FFF_FFFF_FFFF_FFFF
  const MinInt64: int := -0x8000_0000_0000_0000
  const MaxUint64: int := 0xFFFF_FFFF_FFFF_FFFF
  const TwoTo64: int := 0x1_0000_0000_0000_0000

  predicate IsInt64(x: int)
  {
    MinInt64 <= x <= MaxInt64
  }

  /** Go `int` arithmetic: the exact result brought back into range modulo 2^64. */
  function Wrap64(x: int): (r: int)
    ensures IsInt64(r)
    ensures (x - r) % TwoTo64 == 0
    ensures IsInt64(x) ==> r == x
  {
    var m := x % TwoTo64;
    if m > MaxInt64 then m - TwoTo64 else m
  }

  predicate IsDigit(c: char)
  {
    '0' <= c <= '9'
  }

  function Pow10(k: nat): (p: nat)
    ensures p >= 1
  {
    if k == 0 then 1 else 10 * Pow10(k - 1)
  }

  lemma {:induction false} Pow10Monotone(j: nat, k: nat)
    requires j <= k
    ensures Pow10(j) <= Pow10(k)
    decreases k
  {
    if j < k {
      Pow10Monotone(j, k - 1);
    }
  }

  lemma Pow10Of18()
    ensures Pow10(18) == 1_000_000_000_000_000_000
  {
    assert Pow10(3) == 1_000;
    assert Pow10(6) == 1_000_000;
    assert Pow10(9) == 1_000_000_000;
    assert Pow10(12) == 1_000_000_000_000;
    assert Pow10(15) == 1_000_000_000_000_000;
  }

  /** Outcome of strconv.ParseUint(s, 10, 64). */
  datatype UintParse = Parsed(n: nat) | BadSyntax | OutOfRange

  /** The smallest value that overflows 64 bits when multiplied by ten. */
  const Cutoff: int := MaxUint64 / 10 + 1

  /** strconv.ParseUint's digit loop, `acc` being the value of the digits read
      so far: a non-digit is a syntax error, and a value past 2^64 - 1 stops
      the loop at once with a range error, before later characters are seen. */
  function ParseDigits(acc: nat, s: string): UintParse
    decreases |s|
  {
    if s == [] then Parsed(acc)
    else if !IsDigit(s[0]) then BadSyntax
    else if acc >= Cutoff then OutOfRange
    else
      var next := acc * 10 + (s[0] as int - '0' as int);
      if next > MaxUint64 then OutOfRange else ParseDigits(next, s[1..])
  }

  /** strconv.ParseUint(s, 10, 64): the empty string is a syntax error. */
  function ParseUint(s: string): UintParse
  {
    if s == [] then BadSyntax else ParseDigits(0, s)
  }

  /** The text after an optional leading sign. */
  function Unsigned(s: string): string
  {
    if s != [] && (s[0] == '+' || s[0] == '-') then s[1..] else s
  }

  /** The value strconv.Atoi(s) returns, its error dropped as cli.go does: the
      number itself, 0 after a syntax error, the nearer bound after an overflow. */
  function Atoi(s: string): (r: int)
    ensures IsInt64(r)
  {
    if s == [] then 0
    else
      var neg := s[0] == '-';
      match ParseUint(Unsigned(s))
      case BadSyntax => 0
      case OutOfRange => if neg then MinInt64 else MaxInt64
      case Parsed(u) =>
        if !neg && u > MaxInt64 then MaxInt64
        else if neg && u > -MinInt64 then MinInt64
        else if neg then -(u as int)
        else u
  }

  function DigitChar(d: nat): (c: char)
    requires d < 10
    ensures IsDigit(c)
  {
    ('0' as int + d) as char
  }

  /** The decimal digits of `n`, without leading zeros. */
  function Decimal(n: nat): (s: string)
    ensures s != [] && forall i :: 0 <= i < |s| ==> IsDigit(s[i])
    decreases n
  {
    if n < 10 then [DigitChar(n)] else Decimal(n / 10) + [DigitChar(n % 10)]
  }

  /** strconv.Itoa: the decimal digits of `n`, after a '-' when it is negative. */
  function Itoa(n: int): (s: string)
    ensures s != []
    ensures s[0] == '-' <==> n < 0
    ensures forall i :: 0 <= i < |s| ==> IsDigit(s[i]) || (i == 0 && s[i] == '-')
  {
    if n < 0 then "-" + Decimal(-n) else Decimal(n)
  }

  lemma {:induction false} ParseDigitsAppend(acc: nat, s: string, t: string)
    ensures ParseDigits(acc, s + t) ==
      match ParseDigits(acc, s)
      case Parsed(k) => ParseDigits(k, t)
      case other => other
    decreases |s|
  {
    if s == [] {
      assert s + t == t;
    } else {
      assert (s + t)[0] == s[0] && (s + t)[1..] == s[1..] + t;
      if IsDigit(s[0]) && acc < Cutoff {
        var next := acc * 10 + (s[0] as int - '0' as int);
        if next <= MaxUint64 {
          ParseDigitsAppend(next, s[1..], t);
        }
      }
    }
  }

  lemma {:induction false} DecimalParses(n: nat)
    requires n <= MaxUint64
    ensures ParseDigits(0, Decimal(n)) == Parsed(n)
    decreases n
  {
    if n >= 10 {
      DecimalParses(n / 10);
      ParseDigitsAppend(0, Decimal(n / 10), [DigitChar(n % 10)]);
    }
  }

  /** Itoa and Atoi are inverse on 64-bit integers. */
  lemma AtoiItoa(n: int)
    requires IsInt64(n)
    ensures Atoi(Itoa(n)) == n
  {
    var s := Itoa(n);
    if n < 0 {
      assert Unsigned(s) == Decimal(-n);
      DecimalParses(-n);
    } else {
      assert Unsigned(s) == Decimal(n);
      DecimalParses(n);
    }
  }

  /** What strconv.Atoi accepts: an optional sign, then one or more digits. */
  predicate IsNumeral(s: string)
  {
    var digits := Unsigned(s);
    digits != [] && forall i :: 0 <= i < |digits| ==> IsDigit(digits[i])
  }

  /** Below 10^18 one more digit is read without overflow. */
  lemma ParseDigitsStep(acc: nat, s: string, next: nat)
    requires s != [] && IsDigit(s[0]) && acc < 1_000_000_000_000_000_000
    requires next == acc * 10 + (s[0] as int - '0' as int)
    ensures ParseDigits(acc, s) == ParseDigits(next, s[1..])
  {
  }

  /** With at most 20 characters left, a non-digit is reached before the value
      can overflow, so the parse ends in a syntax error. */
  lemma {:induction false} SyntaxErrorBeforeOverflow(acc: nat, width: nat, s: string)
    requires acc < Pow10(width) && width + |s| <= 20
    requires exists i :: 0 <= i < |s| && !IsDigit(s[i])
    ensures ParseDigits(acc, s) == BadSyntax
    decreases |s|
  {
    if IsDigit(s[0]) {
      var i :| 0 <= i < |s| && !IsDigit(s[i]);
      assert i >= 1 && width <= 18;
      Pow10Monotone(width, 18);
      Pow10Of18();
      var next := acc * 10 + (s[0] as int - '0' as int);
      assert next < Pow10(width + 1);
      ParseDigitsStep(acc, s, next);
      assert !IsDigit(s[1..][i - 1]);
      SyntaxErrorBeforeOverflow(next, width + 1, s[1..]);
    }
  }

  /** Text that is not a numeral parses to 0. The bound of 20 characters is
      needed: a longer text can start with a run of digits that overflows
      (more than 20 digits, or 20 whose value reaches 2^64) before the first
      non-digit is read, and Atoi then returns a bound instead. */
  lemma NonNumeralIsZero(s: string)
    requires !IsNumeral(s) && |s| <= 20
    ensures Atoi(s) == 0
  {
    var digits := Unsigned(s);
    if s != [] && digits != [] {
      var i :| 0 <= i < |digits| && !IsDigit(digits[i]);
      SyntaxErrorBeforeOverflow(0, 0, digits);
    }
  }
}

=== FILE: preview.dfy ===
/** The `preview` command that fzf calls for the highlighted line: detection
    of the terminal's graphics capability (checkSixelSupport), the choice of
    the rendering command, the download into the temporary folder and the
    removal of the temporary file. The environment is a record; the
    downloader, the search of the PATH, the running of the command and the
    removal of the file are parameters, and the actions taken are a trace.
    The switch is specified by functions (`PlanOf`, `SixelPlan`,
    `SixelConverter`, `SixelPixels`) and rendered step by step, as the source
    assigns its variables, by the methods proved equal to them
    (`ChooseCommand`, `SixelBranch`, `FindConverter`, `MeasurePane`). */
module Previews {
  import opened Common
  import opened Text
  import opened Geometry
  import opened Numbers
  import opened Selection

  /** The environment variables the command reads. */
  datatype Env = Env(fzfPreviewLines: string, fzfPreviewColumns: string, kittyWindowId: string,
                     term: string, sixelSupport: string, termProgram: string)

  /** How the result of a preview ends, and the actions taken. */
  datatype Shown = Shown(status: Status, trace: seq<Event>)

  /** The terminals known to display sixel graphics, matched as parts of TERM. */
  const SixelTerms: seq<string> :=
    ["xterm-256color", "mlterm", "yaft-256color", "foot", "contour", "tmux-256color"]

  /** A sixel terminal: TERM contains one of the known names, or SIXEL_SUPPORT
      is "1". */
  predicate SixelTerminal(term: string, flag: string)
  {
    (exists i :: 0 <= i < |SixelTerms| && Contains(term, SixelTerms[i])) || flag == "1"
  }

  /** checkSixelSupport: the known names in turn, then the explicit flag. */
  method CheckSixelSupport(term: string, flag: string) returns (b: bool)
    ensures b == SixelTerminal(term, flag)
  {
    for i := 0 to |SixelTerms|
      invariant forall k :: 0 <= k < i ==> !Contains(term, SixelTerms[k])
    {
      if Contains(term, SixelTerms[i]) {
        return true;
      }
    }
    return flag == "1";
  }

  datatype Capability = Kitty | Sixel | Chafa

  /** The rendering tier: Kitty when KITTY_WINDOW_ID is set, else sixel on a
      sixel terminal, else chafa. */
  function CapabilityOf(env: Env): Capability
  {
    if env.kittyWindowId != "" then Kitty
    else if SixelTerminal(env.term, env.sixelSupport) then Sixel
    else Chafa
  }

  /** The temporary file for `url`: the last '/'-separated part of the URL in
      the temporary folder. */
  function TempFile(tempFolder: string, url: string): string
  {
    JoinPath(tempFolder, LastSegment(url))
  }

  /** kitty's icat, placed at the FZF_PREVIEW_* size, on the remote URL. */
  function KittyCommand(columns: string, lines: string, url: string): Command
  {
    Command("kitty", ["icat", "--clear", "--transfer-mode=memory", "--unicode-placeholder", "--stdin=no",
                      "--place=" + columns + "x" + lines + "@0x0", "--scale-up", url])
  }

  /** img2sixel at the pixel width. */
  function Img2SixelCommand(path: string, px: Dims, file: string): Command
  {
    Command(path, ["-w", px.width, file])
  }

  /** ImageMagick, shrinking the image into the pixel box and writing sixel. */
  function MagickCommand(path: string, px: Dims, file: string): Command
  {
    Command(path, [file, "-resize", px.width + "x" + px.height + ">", "-quality", "100", "sixel:-"])
  }

  /** chafa at the FZF_PREVIEW_* size, clearing first. */
  function ChafaCommand(path: string, columns: string, lines: string, file: string): Command
  {
    Command(path, [file, "--size=" + columns + "x" + lines, "--clear"])
  }

  /** The sixel converter: img2sixel when it is on the PATH, else magick, else
      the error that names both. */
  function SixelConverter(lookPath: string -> Option<string>, px: Dims, file: string): Result<Command>
  {
    match lookPath("img2sixel")
    case Some(path) => Success(Img2SixelCommand(path, px, file))
    case None =>
      match lookPath("magick")
      case Some(path) => Success(MagickCommand(path, px, file))
      case None => Failure(NoConverter)
  }

  /** The end of Preview, after `before`: run the command; on failure report
      it; on success remove the temporary file when there is one. */
  function Finish(before: seq<Event>, c: Command, file: string,
                  run: Command -> Option<string>, remove: string -> Status): Shown
  {
    var ran := before + [Exec(c)];
    match run(c)
    case Some(failure) => Shown(Err(PreviewFailed(failure)), ran)
    case None => if file != "" then Shown(remove(file), ran + [Remove(file)]) else Shown(Ok, ran)
  }

  /** The pane size in pixels for the sixel converters: the probed size in
      cells, or the fallback chain, converted to pixels. */
  function SixelPixels(probes: Probes, env: Env): Dims
  {
    CellsToPixels(SixelCells(PreviewPaneDimensions(probes), env.fzfPreviewLines, env.fzfPreviewColumns),
                  env.termProgram)
  }

  /** What the switch of Preview settles: either the call is over already,
      or `command` is to run after the actions `before`, on the temporary
      `file` ("" when there is none). */
  datatype Plan = Stop(shown: Shown) | Launch(before: seq<Event>, command: Command, file: string)

  /** The sixel tier: download, then the converter for the pane size `px`
      in pixels. */
  function SixelPlan(url: string, tempFolder: string, saveTemp: string -> Status, px: Dims,
                     lookPath: string -> Option<string>): Plan
  {
    var download := [SaveTemp(url, tempFolder)];
    if saveTemp(url).Err? then Stop(Shown(saveTemp(url), download))
    else
      match SixelConverter(lookPath, px, TempFile(tempFolder, url))
      case Failure(e) => Stop(Shown(Err(e), download))
      case Success(c) => Launch(download, c, TempFile(tempFolder, url))
  }

  /** The chafa tier: chafa must be on the PATH before anything is
      downloaded. */
  function ChafaPlan(url: string, env: Env, tempFolder: string, saveTemp: string -> Status,
                     lookPath: string -> Option<string>): Plan
  {
    match lookPath("chafa")
    case None => Stop(Shown(Err(NoPreviewMethod), []))
    case Some(path) =>
      if saveTemp(url).Err? then Stop(Shown(saveTemp(url), [SaveTemp(url, tempFolder)]))
      else
        var file := TempFile(tempFolder, url);
        Launch([SaveTemp(url, tempFolder)], ChafaCommand(path, env.fzfPreviewColumns, env.fzfPreviewLines, file),
               file)
  }

  /** The switch of Preview on `text`. `extract` stands for the regular
      expression's first group (None where the indexing of a failed match
      panics); `saveTemp` downloads a URL into `tempFolder`; `probes` are
      the outputs of the terminal probes, read only in the sixel tier;
      `lookPath` searches the PATH. */
  function PlanOf(text: string, env: Env, extract: string -> Option<string>, tempFolder: string,
                  saveTemp: string -> Status, probes: Probes, lookPath: string -> Option<string>): Plan
  {
    if HasMarker(text) then Stop(Shown(Ok, []))
    else if extract(text).None? then Stop(Shown(Err(NoMatch), []))
    else
      var url := extract(text).value;
      match CapabilityOf(env)
      case Kitty => Launch([], KittyCommand(env.fzfPreviewColumns, env.fzfPreviewLines, url), "")
      case Sixel => SixelPlan(url, tempFolder, saveTemp, SixelPixels(probes, env), lookPath)
      case Chafa => ChafaPlan(url, env, tempFolder, saveTemp, lookPath)
  }

  /** Carrying out a plan: `run` runs a command and gives its error, if any;
      `remove` deletes a file. */
  function Carry(plan: Plan, run: Command -> Option<string>, remove: string -> Status): Shown
  {
    match plan
    case Stop(shown) => shown
    case Launch(before, c, file) => Finish(before, c, file, run, remove)
  }

  /** The preview of `text`. */
  function PreviewOf(text: string, env: Env, extract: string -> Option<string>, tempFolder: string,
                     saveTemp: string -> Status, probes: Probes, lookPath: string -> Option<string>,
                     run: Command -> Option<string>, remove: string -> Status): Shown
  {
    Carry(PlanOf(text, env, extract, tempFolder, saveTemp, probes, lookPath), run, remove)
  }

  /** The pane size of the sixel branch, as the source assigns `width` and
      `height`: empty, then the probed size, or on a failed probe the
      FZF_PREVIEW_* variables when both are set and "80" by "24" when
      FZF_PREVIEW_LINES is unset; then the conversion to pixels. */
  method MeasurePane(probes: Probes, env: Env) returns (cells: Dims, px: Dims)
    ensures cells == SixelCells(PreviewPaneDimensions(probes), env.fzfPreviewLines, env.fzfPreviewColumns)
    ensures px == SixelPixels(probes, env)
  {
    var width, height := "", "";
    var probed := PreviewPaneDimensions(probes);
    if probed.Some? {
      width, height := probed.value.width, probed.value.height;
    } else if env.fzfPreviewLines != "" {
      if env.fzfPreviewColumns != "" {
        width := env.fzfPreviewColumns;
        height := env.fzfPreviewLines;
      }
    } else {
      width := "80";
      height := "24";
    }
    cells := Dims(width, height);
    px := CellsToPixels(cells, env.termProgram);
  }

  /** The converter search of the sixel branch, one PATH lookup after the
      other. */
  method FindConverter(lookPath: string -> Option<string>, px: Dims, file: string) returns (r: Result<Command>)
    ensures r == SixelConverter(lookPath, px, file)
  {
    var img2sixel := lookPath("img2sixel");
    if img2sixel.Some? {
      return Success(Img2SixelCommand(img2sixel.value, px, file));
    }
    var magick := lookPath("magick");
    if magick.None? {
      return Failure(NoConverter);
    }
    return Success(MagickCommand(magick.value, px, file));
  }

  /** The sixel branch of Preview's switch: download, measure the pane, find
      a converter. */
  method SixelBranch(url: string, env: Env, tempFolder: string, saveTemp: string -> Status, probes: Probes,
                     lookPath: string -> Option<string>)
    returns (plan: Plan)
    ensures plan == SixelPlan(url, tempFolder, saveTemp, SixelPixels(probes, env), lookPath)
  {
    var saved := saveTemp(url);
    var trace := [SaveTemp(url, tempFolder)];
    if saved.Err? {
      return Stop(Shown(saved, trace));
    }
    var cells, px := MeasurePane(probes, env);
    var file := TempFile(tempFolder, url);
    var converter := FindConverter(lookPath, px, file);
    if converter.Failure? {
      return Stop(Shown(Err(converter.error), trace));
    }
    return Launch(trace, converter.value, file);
  }

  /** The switch of Preview, choosing the command and the temporary file. */
  method ChooseCommand(text: string, env: Env, extract: string -> Option<string>, tempFolder: string,
                       saveTemp: string -> Status, probes: Probes, lookPath: string -> Option<string>)
    returns (plan: Plan)
    ensures plan == PlanOf(text, env, extract, tempFolder, saveTemp, probes, lookPath)
  {
    if Contains(text, ForwardMarker) || Contains(text, BackMarker) {
      return Stop(Shown(Ok, []));
    }
    var fzfLines := env.fzfPreviewLines;
    var fzfColumns := env.fzfPreviewColumns;
    var kittySupport := env.kittyWindowId != "";
    var sixelSupport := CheckSixelSupport(env.term, env.sixelSupport);
    var found := extract(text);
    if found.None? {
      return Stop(Shown(Err(NoMatch), []));
    }
    var url := found.value;
    if kittySupport {
      plan := Launch([], KittyCommand(fzfColumns, fzfLines, url), "");
    } else if sixelSupport {
      plan := SixelBranch(url, env, tempFolder, saveTemp, probes, lookPath);
    } else {
      var chafa := lookPath("chafa");
      if chafa.None? {
        return Stop(Shown(Err(NoPreviewMethod), []));
      }
      var saved := saveTemp(url);
      var trace := [SaveTemp(url, tempFolder)];
      if saved.Err? {
        return Stop(Shown(saved, trace));
      }
      var file := TempFile(tempFolder, url);
      plan := Launch(trace, ChafaCommand(chafa.value, fzfColumns, fzfLines, file), file);
    }
  }

  /** Preview: the switch, then the command, then the removal of the
      temporary file. */
  method Preview(text: string, env: Env, extract: string -> Option<string>, tempFolder: string,
                 saveTemp: string -> Status, probes: Probes, lookPath: string -> Option<string>,
                 run: Command -> Option<string>, remove: string -> Status)
    returns (status: Status, trace: seq<Event>)
    ensures Shown(status, trace) == PreviewOf(text, env, extract, tempFolder, saveTemp, probes, lookPath, run, remove)
  {
    var plan := ChooseCommand(text, env, extract, tempFolder, saveTemp, probes, lookPath);
    if plan.Stop? {
      return plan.shown.status, plan.shown.trace;
    }
    var command, file := plan.command, plan.file;
    var failure := run(command);
    trace := plan.before + [Exec(command)];
    if failure.Some? {
      return Err(PreviewFailed(failure.value)), trace;
    }
    if file != "" {
      trace := trace + [Remove(file)];
      return remove(file), trace;
    }
    return Ok, trace;
  }

  /** A navigation line is previewed as nothing: success, and no action. */
  lemma NavigationLineIsNoOp(text: string, env: Env, extract: string -> Option<string>, tempFolder: string,
                             saveTemp: string -> Status, probes: Probes, lookPath: string -> Option<string>,
                             run: Command -> Option<string>, remove: string -> Status)
    requires Contains(text, ForwardMarker) || Contains(text, BackMarker)
    ensures PreviewOf(text, env, extract, tempFolder, saveTemp, probes, lookPath, run, remove) == Shown(Ok, [])
  {
  }

  /** The priority of the tiers: Kitty over sixel over chafa, whatever else
      is set. */
  lemma CapabilityPriority(env: Env)
    ensures CapabilityOf(env) == Kitty <==> env.kittyWindowId != ""
    ensures CapabilityOf(env) == Sixel <==> env.kittyWindowId == "" && SixelTerminal(env.term, env.sixelSupport)
    ensures CapabilityOf(env) == Chafa <==> env.kittyWindowId == "" && !SixelTerminal(env.term, env.sixelSupport)
  {
  }

  /** Any of the known names inside TERM makes a sixel terminal, as does
      SIXEL_SUPPORT=1; without either it is not one. */
  lemma SixelTerminalCases(term: string, flag: string, name: string)
    requires name in SixelTerms
    ensures Contains(term, name) ==> SixelTerminal(term, flag)
    ensures flag == "1" ==> SixelTerminal(term, flag)
    ensures (forall n :: n in SixelTerms ==> !Contains(term, n)) && flag != "1" ==> !SixelTerminal(term, flag)
  {
    var i :| 0 <= i < |SixelTerms| && SixelTerms[i] == name;
  }

  /** With none of the variables set, the preview falls back to chafa. */
  lemma EmptyEnvironmentMeansChafa(env: Env)
    requires env.kittyWindowId == "" && env.term == "" && env.sixelSupport == ""
    ensures CapabilityOf(env) == Chafa
  {
    forall i | 0 <= i < |SixelTerms|
      ensures !Contains(env.term, SixelTerms[i])
    {
      assert |SixelTerms[i]| > 0;
    }
  }

  /** Under Kitty the remote URL is shown directly: nothing is downloaded or
      removed, and the one action is the icat command. */
  lemma KittyStreamsUrl(text: string, env: Env, extract: string -> Option<string>, tempFolder: string,
                        saveTemp: string -> Status, probes: Probes, lookPath: string -> Option<string>,
                        run: Command -> Option<string>, remove: string -> Status)
    requires !HasMarker(text) && extract(text).Some? && env.kittyWindowId != ""
    ensures var c := KittyCommand(env.fzfPreviewColumns, env.fzfPreviewLines, extract(text).value);
      PreviewOf(text, env, extract, tempFolder, saveTemp, probes, lookPath, run, remove) ==
        Shown(if run(c).None? then Ok else Err(PreviewFailed(run(c).value)), [Exec(c)])
  {
  }

  /** The converters in order: img2sixel when it is on the PATH, even when
      magick is too; magick otherwise; the "no converter" error without
      either. */
  lemma ConverterOrder(lookPath: string -> Option<string>, px: Dims, file: string)
    ensures lookPath("img2sixel").Some? ==>
      SixelConverter(lookPath, px, file) == Success(Command(lookPath("img2sixel").value, ["-w", px.width, file]))
    ensures lookPath("img2sixel").None? && lookPath("magick").Some? ==>
      SixelConverter(lookPath, px, file).Success? &&
      SixelConverter(lookPath, px, file).value.program == lookPath("magick").value
    ensures SixelConverter(lookPath, px, file) == Failure(NoConverter) <==>
      lookPath("img2sixel").None? && lookPath("magick").None?
  {
  }

  /** On a sixel terminal the preview goes to the sixel tier, with the pane
      size measured from the probes and the environment. */
  lemma SixelTierMeasuresPane(text: string, env: Env, extract: string -> Option<string>, tempFolder: string,
                              saveTemp: string -> Status, probes: Probes, lookPath: string -> Option<string>)
    requires !HasMarker(text) && extract(text).Some? && CapabilityOf(env) == Sixel
    ensures PlanOf(text, env, extract, tempFolder, saveTemp, probes, lookPath) ==
      SixelPlan(extract(text).value, tempFolder, saveTemp, SixelPixels(probes, env), lookPath)
  {
  }

  /** The 80 by 24 cell pane in pixels: 684 by 410, or 608 by 364 under
      iTerm.app. */
  lemma PixelsOfLastResort(termProgram: string)
    ensures CellsToPixels(Dims("80", "24"), termProgram) ==
      if termProgram == "iTerm.app" then Dims("608", "364") else Dims("684", "410")
  {
    assert Itoa(80) == "80" && Itoa(24) == "24";
    AtoiItoa(80);
    AtoiItoa(24);
    assert Itoa(684) == "684" && Itoa(410) == "410";
    assert Itoa(608) == "608" && Itoa(364) == "364";
  }

  /** With every probe failing and FZF_PREVIEW_LINES unset, the sixel
      converters get the 80 by 24 cell pane in pixels. */
  lemma LastResortPixels(probes: Probes, env: Env)
    requires probes.stty.None? && probes.tputCols.None? && env.fzfPreviewLines == ""
    ensures SixelPixels(probes, env) ==
      if env.termProgram == "iTerm.app" then Dims("608", "364") else Dims("684", "410")
  {
    assert PreviewPaneDimensions(probes).None?;
    PixelsOfLastResort(env.termProgram);
  }

  /** In the sixel tier the image is downloaded first, before any converter
      is looked for; the converter then runs on the temporary file, and
      without one the call fails after the download. */
  lemma SixelDownloadsFirst(url: string, tempFolder: string, saveTemp: string -> Status, px: Dims,
                            lookPath: string -> Option<string>, run: Command -> Option<string>,
                            remove: string -> Status)
    ensures var s := Carry(SixelPlan(url, tempFolder, saveTemp, px, lookPath), run, remove);
      var file := TempFile(tempFolder, url);
      var converter := SixelConverter(lookPath, px, file);
      && |s.trace| >= 1 && s.trace[0] == SaveTemp(url, tempFolder)
      && (saveTemp(url).Err? ==> s == Shown(saveTemp(url), [SaveTemp(url, tempFolder)]))
      && (saveTemp(url).Ok? && converter.Failure? ==> s == Shown(Err(NoConverter), [SaveTemp(url, tempFolder)]))
      && (saveTemp(url).Ok? && converter.Success? ==>
            s == Finish([SaveTemp(url, tempFolder)], converter.value, file, run, remove))
  {
  }

  /** Under chafa the PATH is searched before anything is downloaded, and
      without chafa the call fails with no action at all; a failed download
      is the result; otherwise chafa runs on the temporary file and the call
      ends as `Finish` says, removing the file only after a successful run. */
  lemma ChafaCheckedBeforeDownload(text: string, env: Env, extract: string -> Option<string>, tempFolder: string,
                                   saveTemp: string -> Status, probes: Probes, lookPath: string -> Option<string>,
                                   run: Command -> Option<string>, remove: string -> Status)
    requires !HasMarker(text) && extract(text).Some? && CapabilityOf(env) == Chafa
    ensures var url := extract(text).value;
      var s := PreviewOf(text, env, extract, tempFolder, saveTemp, probes, lookPath, run, remove);
      && (lookPath("chafa").None? ==> s == Shown(Err(NoPreviewMethod), []))
      && (lookPath("chafa").Some? ==> |s.trace| >= 1 && s.trace[0] == SaveTemp(url, tempFolder))
      && (lookPath("chafa").Some? && saveTemp(url).Ok? ==>
            |s.trace| >= 2 &&
            s.trace[1] == Exec(ChafaCommand(lookPath("chafa").value, env.fzfPreviewColumns, env.fzfPreviewLines,
                                            TempFile(tempFolder, url))))
      && (lookPath("chafa").Some? && saveTemp(url).Err? ==> s == Shown(saveTemp(url), [SaveTemp(url, tempFolder)]))
      && (lookPath("chafa").Some? && saveTemp(url).Ok? ==>
            s == Finish([SaveTemp(url, tempFolder)],
                        ChafaCommand(lookPath("chafa").value, env.fzfPreviewColumns, env.fzfPreviewLines,
                                     TempFile(tempFolder, url)),
                        TempFile(tempFolder, url), run, remove))
  {
  }

  /** The temporary file lies in the temporary folder under the last part of
      the URL, a name without '/'. */
  lemma TempFileName(tempFolder: string, url: string)
    ensures var file := TempFile(tempFolder, url);
      var name := LastSegment(url);
      && '/' !in name
      && |name| <= |file| && file[|file| - |name|..] == name
      && (tempFolder != "" && name != "" && tempFolder[|tempFolder| - 1] != '/' ==> file == tempFolder + "/" + name)
  {
    LastSegmentShape(url);
    JoinPathShape(tempFolder, LastSegment(url));
  }

  /** Once a command was chosen for a downloaded file: the command runs right
      after the download; when it fails the error is reported and the file
      is left in place; when it succeeds the file is removed, last, and the
      result of the removal is the result of the call. */
  lemma TempFileLifecycle(before: seq<Event>, c: Command, file: string,
                          run: Command -> Option<string>, remove: string -> Status)
    requires file != ""
    ensures var s := Finish(before, c, file, run, remove);
      && s.trace[..|before|] == before
      && s.trace[|before|] == Exec(c)
      && (Remove(file) in s.trace[|before|..] <==> run(c).None?)
      && (run(c).Some? ==> s == Shown(Err(PreviewFailed(run(c).value)), before + [Exec(c)]))
      && (run(c).None? ==> s == Shown(remove(file), before + [Exec(c), Remove(file)]))
  {
    var s := Finish(before, c, file, run, remove);
    assert s.trace[|before|..] == if run(c).None? then [Exec(c), Remove(file)] else [Exec(c)];
  }

  /** The file of the sixel and chafa tiers is never empty when the
      temporary folder is set, so a successful command is always followed by
      the removal. */
  lemma TempFileNotEmpty(tempFolder: string, url: string)
    requires tempFolder != ""
    ensures TempFile(tempFolder, url) != ""
  {
    JoinPathShape(tempFolder, LastSegment(url));
  }
}

=== FILE: selection.dfy ===
/** The menu of one result page and the paging loop around fzf: `search`, the
    `for url == ""` loops of `Search` and `Collection`, and `Search` itself.
    The page number is state of the loop rather than a global; the result
    pages come from a function of the page number, and fzf's replies from a
    sequence consumed one per call, so the loop runs on bounded fuel. */
module Selection {
  import opened Common
  import opened Text

  /** One image of a result page. */
  datatype Image = Image(id: string, resolution: string, url: string)

  /** One page of results with the number of the last page. */
  datatype ImagesResponse = ImagesResponse(images: seq<Image>, lastPage: int)

  /** What one call of fzf gives back: the chosen line, or an error (the user
      closed the menu). */
  datatype Reply = Chose(line: string) | Cancelled(reason: string)

  const NextLine: string := "Next page -->"
  const PrevLine: string := "Previous page <--"
  const ForwardMarker: string := "-->"
  const BackMarker: string := "<--"

  predicate HasMarker(line: string)
  {
    Contains(line, ForwardMarker) || Contains(line, BackMarker)
  }

  /** The menu line of an image: "<resolution> (<url>)". */
  function ImageLine(img: Image): string
  {
    Entry(img.resolution, img.url)
  }

  function ImageLines(images: seq<Image>): (lines: seq<string>)
    ensures |lines| == |images|
    ensures forall i :: 0 <= i < |images| ==> lines[i] == ImageLine(images[i])
  {
    if images == [] then [] else [ImageLine(images[0])] + ImageLines(images[1..])
  }

  /** The navigation lines: "Next page -->" while there is a later page, then
      "Previous page <--" after the first page. */
  function NavLines(page: int, lastPage: int): seq<string>
  {
    (if lastPage > page then [NextLine] else []) + (if page > 1 then [PrevLine] else [])
  }

  /** The menu `search` hands to fzf for one page. */
  function Selections(page: int, resp: ImagesResponse): seq<string>
  {
    NavLines(page, resp.lastPage) + ImageLines(resp.images)
  }

  /** The menu holds "Next page -->" exactly when a later page exists and
      "Previous page <--" exactly after the first page, in that order and
      before one line per image, in the order of the page. */
  lemma SelectionsShape(page: int, resp: ImagesResponse)
    ensures var lines := Selections(page, resp);
      var nav := |NavLines(page, resp.lastPage)|;
      && nav == (if resp.lastPage > page then 1 else 0) + (if page > 1 then 1 else 0)
      && |lines| == nav + |resp.images|
      && (NextLine in lines <==> resp.lastPage > page)
      && (PrevLine in lines <==> page > 1)
      && (resp.lastPage > page ==> lines[0] == NextLine)
      && (page > 1 ==> lines[nav - 1] == PrevLine)
      && forall i :: 0 <= i < |resp.images| ==> lines[nav + i] == ImageLine(resp.images[i])
  {
    var lines := Selections(page, resp);
    var nav := NavLines(page, resp.lastPage);
    var images := ImageLines(resp.images);
    assert NextLine[|NextLine| - 1] == '>' && PrevLine[|PrevLine| - 1] == '-';
    assert forall i :: 0 <= i < |images| ==> images[i][|images[i]| - 1] == ')';
    assert NextLine !in images && PrevLine !in images;
    assert NextLine != PrevLine;
  }

  /** `search` before it calls fzf: an error for a page without images,
      otherwise the menu of the page. */
  method BuildSelections(page: int, resp: ImagesResponse) returns (r: Result<seq<string>>)
    ensures |resp.images| == 0 ==> r == Failure(NoImages)
    ensures |resp.images| > 0 ==> r == Success(Selections(page, resp))
  {
    var selections: seq<string> := [];
    if |resp.images| == 0 {
      return Failure(NoImages);
    }
    if resp.lastPage > page {
      selections := selections + [NextLine];
    }
    if page > 1 {
      selections := selections + [PrevLine];
    }
    ghost var nav := selections;
    assert nav == NavLines(page, resp.lastPage);
    for i := 0 to |resp.images|
      invariant selections == nav + ImageLines(resp.images[..i])
    {
      ImageLinesStep(resp.images, i);
      selections := selections + [ImageLine(resp.images[i])];
    }
    assert resp.images[..|resp.images|] == resp.images;
    return Success(selections);
  }

  /** One more image adds its line at the end. */
  lemma ImageLinesStep(images: seq<Image>, i: nat)
    requires i < |images|
    ensures ImageLines(images[..i + 1]) == ImageLines(images[..i]) + [ImageLine(images[i])]
  {
    var longer := ImageLines(images[..i + 1]);
    var shorter := ImageLines(images[..i]) + [ImageLine(images[i])];
    forall k | 0 <= k < |longer|
      ensures longer[k] == shorter[k]
    {
      assert images[..i + 1][k] == images[k];
    }
  }

  /** How the loop reads a chosen line. */
  datatype Step = Forward | Backward | Pick

  /** "-->" is tested first, then "<--"; anything else is a picked image. */
  function StepOf(line: string): Step
  {
    if Contains(line, ForwardMarker) then Forward
    else if Contains(line, BackMarker) then Backward
    else Pick
  }

  /** The page number after a chosen line. */
  function PageAfter(page: int, line: string): int
  {
    match StepOf(line)
    case Forward => page + 1
    case Backward => page - 1
    case Pick => page
  }

  lemma NextLineForward()
    ensures Contains(NextLine, ForwardMarker)
  {
    assert OccursAt(NextLine, ForwardMarker, 10);
  }

  lemma PrevLineBackward()
    ensures !Contains(PrevLine, ForwardMarker) && Contains(PrevLine, BackMarker)
  {
    NotContainedWithout(PrevLine, ForwardMarker, '>');
    assert OccursAt(PrevLine, BackMarker, 14);
  }

  /** The two navigation lines step forward and back. */
  lemma NavigationSteps()
    ensures StepOf(NextLine) == Forward
    ensures StepOf(PrevLine) == Backward
  {
    NextLineForward();
    PrevLineBackward();
  }

  /** No image line of the page carries a navigation marker. */
  predicate Unmarked(images: seq<Image>)
  {
    forall i :: 0 <= i < |images| ==> !HasMarker(ImageLine(images[i]))
  }

  /** A line of the menu is the line of an image, or a navigation line that
      the page number allows. */
  lemma MenuLine(page: int, resp: ImagesResponse, line: string)
    requires line in Selections(page, resp)
    ensures line in ImageLines(resp.images) || (line == NextLine && resp.lastPage > page) ||
            (line == PrevLine && page > 1)
  {
    var nav := NavLines(page, resp.lastPage);
    if line !in ImageLines(resp.images) {
      assert line in nav;
    }
  }

  /** Choosing a line of the menu moves forward only to an existing page,
      back only to a page from 1 on, and a pick keeps the page. */
  lemma PageStaysInRange(page: int, resp: ImagesResponse, line: string)
    requires page >= 1 && line in Selections(page, resp) && Unmarked(resp.images)
    ensures PageAfter(page, line) >= 1
    ensures StepOf(line) == Forward ==> line == NextLine && PageAfter(page, line) == page + 1 <= resp.lastPage
    ensures StepOf(line) == Backward ==> line == PrevLine && PageAfter(page, line) == page - 1
    ensures StepOf(line) == Pick ==> PageAfter(page, line) == page && line in ImageLines(resp.images)
    ensures page <= resp.lastPage ==> PageAfter(page, line) <= resp.lastPage
  {
    MenuLine(page, resp, line);
    NavigationSteps();
    var images := ImageLines(resp.images);
    if line in images {
      var i :| 0 <= i < |images| && images[i] == line;
      assert !HasMarker(ImageLine(resp.images[i]));
      assert StepOf(line) == Pick;
    }
  }

  /** How the paging loop ends: with a URL, with an error, or with the replies
      used up while fzf is still showing a menu. */
  datatype BrowseEnd = Chosen(url: string) | Stopped(error: Error) | OutOfReplies

  /** The end of the loop, the page number at that point and the external
      actions taken. */
  datatype Browse = Browse(end: BrowseEnd, page: int, trace: seq<Event>)

  function Prepend(events: seq<Event>, b: Browse): Browse
  {
    b.(trace := events + b.trace)
  }

  lemma PrependTwice(first: seq<Event>, second: seq<Event>, b: Browse)
    ensures Prepend(first, Prepend(second, b)) == Prepend(first + second, b)
  {
    assert first + (second + b.trace) == first + second + b.trace;
  }

  /** What `search` hands back for one page: an error for a page without
      images, the error of fzf, or the line chosen; `Unanswered` when the
      replies are used up. */
  datatype Answer = Picked(line: string) | Refused(error: Error) | Unanswered

  function MenuAnswer(resp: ImagesResponse, replies: seq<Reply>): (a: Answer)
    ensures |resp.images| == 0 ==> a == Refused(NoImages)
    ensures |resp.images| > 0 && replies == [] ==> a == Unanswered
    ensures a.Picked? ==> replies != [] && replies[0] == Chose(a.line)
    ensures |resp.images| > 0 && replies != [] && replies[0].Chose? ==> a == Picked(replies[0].line)
    ensures |resp.images| > 0 && replies != [] && replies[0].Cancelled? ==> a == Refused(Foreign(replies[0].reason))
  {
    if |resp.images| == 0 then Refused(NoImages)
    else if replies == [] then Unanswered
    else
      match replies[0]
      case Cancelled(reason) => Refused(Foreign(reason))
      case Chose(line) => Picked(line)
  }

  /** The events of one call of `search`: fzf is called only for a page with
      images. */
  function Offered(page: int, resp: ImagesResponse): seq<Event>
  {
    if |resp.images| == 0 then [] else [Offer(Selections(page, resp), true)]
  }

  /** `search`: the menu of the page, then the reply of fzf to it. */
  method SearchMenu(page: int, resp: ImagesResponse, replies: seq<Reply>, next: nat)
    returns (a: Answer, events: seq<Event>)
    requires next <= |replies|
    ensures a == MenuAnswer(resp, replies[next..])
    ensures events == Offered(page, resp)
  {
    var selections := BuildSelections(page, resp);
    if selections.Failure? {
      return Refused(selections.error), [];
    }
    events := [Offer(selections.value, true)];
    if next == |replies| {
      return Unanswered, events;
    }
    match replies[next] {
      case Cancelled(reason) => a := Refused(Foreign(reason));
      case Chose(line) => a := Picked(line);
    }
  }

  /** What one round of the loop leads to: another round from a page, or the
      end of the loop; with the events of the round. */
  datatype Round = Again(page: int, events: seq<Event>) | Over(end: BrowseEnd, events: seq<Event>)

  /** One round of the loop `for url == ""` at `page`: fetch the page, let
      `search` show its menu, and step forward, step back, or read the URL out
      of the chosen line with `extract` (the regular expression's first group;
      None where Go's indexing of a failed match panics). A URL that comes out
      empty means another round on the same page. */
  function RoundAt(fetch: int -> Result<ImagesResponse>, extract: string -> Option<string>,
                   replies: seq<Reply>, page: int): (r: Round)
    ensures r.Again? ==> replies != [] && replies[0].Chose?
    ensures r.Over? && r.end.Chosen? ==> r.end.url != ""
    ensures |r.events| >= 1 && r.events[0] == Fetch(page)
  {
    match fetch(page)
    case Failure(e) => Over(Stopped(e), [Fetch(page)])
    case Success(resp) =>
      var shown := [Fetch(page)] + Offered(page, resp);
      match MenuAnswer(resp, replies)
      case Refused(e) => Over(Stopped(e), shown)
      case Unanswered => Over(OutOfReplies, shown)
      case Picked(line) =>
        if StepOf(line) != Pick then Again(PageAfter(page, line), shown)
        else
          match extract(line)
          case None => Over(Stopped(NoMatch), shown)
          case Some(url) => if url == "" then Again(page, shown) else Over(Chosen(url), shown)
  }

  /** The whole loop from `page` on: rounds until one ends it. */
  function Browsing(fetch: int -> Result<ImagesResponse>, extract: string -> Option<string>,
                    replies: seq<Reply>, page: int): Browse
    decreases |replies|
  {
    match RoundAt(fetch, extract, replies, page)
    case Over(end, events) => Browse(end, page, events)
    case Again(next, events) => Prepend(events, Browsing(fetch, extract, replies[1..], next))
  }

  /** The body of the loop, with `next` the index of fzf's next reply. */
  method PlayRound(fetch: int -> Result<ImagesResponse>, extract: string -> Option<string>,
                   replies: seq<Reply>, next: nat, page: int) returns (r: Round)
    requires next <= |replies|
    ensures r == RoundAt(fetch, extract, replies[next..], page)
  {
    var images := fetch(page);
    if images.Failure? {
      return Over(Stopped(images.error), [Fetch(page)]);
    }
    var answer, offered := SearchMenu(page, images.value, replies, next);
    var shown := [Fetch(page)] + offered;
    match answer {
      case Refused(e) =>
        return Over(Stopped(e), shown);
      case Unanswered =>
        return Over(OutOfReplies, shown);
      case Picked(selection) =>
        if Contains(selection, ForwardMarker) {
          return Again(page + 1, shown);
        } else if Contains(selection, BackMarker) {
          return Again(page - 1, shown);
        }
        var found := extract(selection);
        if found.None? {
          return Over(Stopped(NoMatch), shown);
        }
        var url := found.value;
        if url == "" {
          return Again(page, shown);
        }
        return Over(Chosen(url), shown);
    }
  }

  /** The loop of `Search` and `Collection`, with the page number and the URL
      as the variables it updates. */
  method SelectImage(fetch: int -> Result<ImagesResponse>, extract: string -> Option<string>,
                     replies: seq<Reply>, start: int) returns (b: Browse)
    ensures b == Browsing(fetch, extract, replies, start)
  {
    var page := start;
    var url := "";
    var trace: seq<Event> := [];
    var next := 0;
    while url == ""
      invariant 0 <= next <= |replies|
      invariant url == "" ==>
        Browsing(fetch, extract, replies, start) == Prepend(trace, Browsing(fetch, extract, replies[next..], page))
      invariant url != "" ==> Browsing(fetch, extract, replies, start) == Browse(Chosen(url), page, trace)
      decreases |replies| - next, if url == "" then 1 else 0
    {
      var round := PlayRound(fetch, extract, replies, next, page);
      ghost var before := trace;
      trace := trace + round.events;
      match round {
        case Again(after, events) =>
          assert replies[next..][1..] == replies[next + 1..];
          ghost var rest := Browsing(fetch, extract, replies[next + 1..], after);
          assert Browsing(fetch, extract, replies[next..], page) == Prepend(events, rest);
          PrependTwice(before, events, rest);
          next := next + 1;
          page := after;
        case Over(end, events) =>
          assert Browsing(fetch, extract, replies[next..], page) == Browse(end, page, events);
          if !end.Chosen? {
            return Browse(end, page, trace);
          }
          url := end.url;
      }
    }
    return Browse(Chosen(url), page, trace);
  }

  /** fzf used as a menu: every line chosen is a line of the menu it was
      shown, and no image line of such a page carries a marker. */
  ghost predicate MenuReplies(fetch: int -> Result<ImagesResponse>, replies: seq<Reply>, page: int)
    decreases |replies|
  {
    match fetch(page)
    case Failure(_) => true
    case Success(resp) =>
      match MenuAnswer(resp, replies)
      case Picked(line) =>
        Unmarked(resp.images) && line in Selections(page, resp) &&
        MenuReplies(fetch, replies[1..], PageAfter(page, line))
      case _ => true
  }

  /** Every page fetched in `trace` is from 1 on. */
  predicate FetchesFromOne(trace: seq<Event>)
  {
    forall i :: 0 <= i < |trace| ==> (trace[i].Fetch? ==> trace[i].page >= 1)
  }

  /** Starting from a page of at least 1, and with replies taken from the
      menus shown, the loop only ever fetches pages from 1 on. */
  lemma {:induction false} BrowsingStaysOnPages(fetch: int -> Result<ImagesResponse>,
                                                extract: string -> Option<string>,
                                                replies: seq<Reply>, page: int)
    requires page >= 1 && MenuReplies(fetch, replies, page)
    ensures var b := Browsing(fetch, extract, replies, page);
      b.page >= 1 && FetchesFromOne(b.trace)
    decreases |replies|
  {
    match fetch(page)
    case Failure(_) =>
    case Success(resp) =>
      var shown := [Fetch(page)] + Offered(page, resp);
      assert FetchesFromOne(shown);
      match MenuAnswer(resp, replies)
      case Picked(line) =>
        PageStaysInRange(page, resp, line);
        var r := RoundAt(fetch, extract, replies, page);
        if r.Again? {
          BrowsingStaysOnPages(fetch, extract, replies[1..], r.page);
          var rest := Browsing(fetch, extract, replies[1..], r.page);
          assert FetchesFromOne(shown + rest.trace);
        }
      case _ =>
  }

  /** Choosing "Next page -->" or "Previous page <--" fetches the next or the
      previous page and shows its menu. */
  lemma NavigationRefetches(fetch: int -> Result<ImagesResponse>, extract: string -> Option<string>,
                            replies: seq<Reply>, page: int)
    requires fetch(page).Success? && |fetch(page).value.images| > 0
    requires replies != [] && replies[0] in {Chose(NextLine), Chose(PrevLine)}
    ensures var shown := [Fetch(page), Offer(Selections(page, fetch(page).value), true)];
      Browsing(fetch, extract, replies, page) ==
        Prepend(shown, Browsing(fetch, extract, replies[1..],
                                if replies[0] == Chose(NextLine) then page + 1 else page - 1))
  {
    NavigationSteps();
  }

  /** Choosing the line of an image ends the loop with that image's URL,
      when the URL is read back as the text inside the trailing parentheses. */
  lemma PickingAnImage(fetch: int -> Result<ImagesResponse>, replies: seq<Reply>, page: int, img: Image)
    requires fetch(page).Success? && img in fetch(page).value.images
    requires replies != [] && replies[0] == Chose(ImageLine(img))
    requires !HasMarker(ImageLine(img)) && '(' !in img.url && img.url != ""
    ensures Browsing(fetch, TrailingParen, replies, page) ==
      Browse(Chosen(img.url), page, [Fetch(page), Offer(Selections(page, fetch(page).value), true)])
  {
    EntryRoundTrip(img.resolution, img.url);
  }

  /** `Search`: the paging loop over the search results, then the download
      of the chosen URL. */
  method Search(searchApi: int -> Result<ImagesResponse>, extract: string -> Option<string>,
                save: string -> Status, replies: seq<Reply>, start: int)
    returns (outcome: Outcome, trace: seq<Event>)
    ensures var b := Browsing(searchApi, extract, replies, start);
      match b.end
      case Chosen(url) =>
        && trace == b.trace + [Save(url)]
        && outcome == (if save(url).Ok? then Done else Failed(save(url).error))
      case Stopped(e) => trace == b.trace && outcome == Failed(e)
      case OutOfReplies => trace == b.trace && outcome == Pending
  {
    var b := SelectImage(searchApi, extract, replies, start);
    trace := b.trace;
    match b.end {
      case Stopped(e) =>
        return Failed(e), trace;
      case OutOfReplies =>
        return Pending, trace;
      case Chosen(url) =>
        var saved := save(url);
        trace := trace + [Save(url)];
        if saved.Err? {
          return Failed(saved.error), trace;
        }
        return Done, trace;
    }
  }
}

=== FILE: text.dfy ===
/** The string functions of Go's standard library that the command line relies
    on (strings.Contains, strings.Fields, strings.TrimSpace, the last element
    of strings.Split, filepath.Join), and the "caption (ref)" menu lines. */
module Text {
  import opened Common

  /** `sub` occurs in `s` at offset `i`. */
  predicate OccursAt(s: string, sub: string, i: int)
  {
    0 <= i <= |s| - |sub| && s[i..i + |sub|] == sub
  }

  /** strings.Contains: `sub` occurs somewhere in `s`; the empty string occurs
      in every string. */
  predicate Contains(s: string, sub: string)
  {
    exists i :: 0 <= i <= |s| - |sub| && OccursAt(s, sub, i)
  }

  /** A string that lacks one of the characters of `sub` does not contain `sub`. */
  lemma NotContainedWithout(s: string, sub: string, c: char)
    requires c in sub && c !in s
    ensures !Contains(s, sub)
  {
    var k :| 0 <= k < |sub| && sub[k] == c;
    forall i | 0 <= i <= |s| - |sub|
      ensures !OccursAt(s, sub, i)
    {
      assert s[i..i + |sub|][k] == s[i + k] != c;
    }
  }

  /** unicode.IsSpace. */
  predicate IsSpace(c: char)
  {
    c == '\U{0009}' || c == '\U{000A}' || c == '\U{000B}' || c == '\U{000C}' || c == '\U{000D}'
    || c == ' ' || c == '\U{0085}' || c == '\U{00A0}' || c == '\U{1680}'
    || ('\U{2000}' <= c <= '\U{200A}')
    || c == '\U{2028}' || c == '\U{2029}' || c == '\U{202F}' || c == '\U{205F}' || c == '\U{3000}'
  }

  /** A non-empty run of non-space characters. */
  predicate IsWord(w: string)
  {
    w != [] && forall i :: 0 <= i < |w| ==> !IsSpace(w[i])
  }

  predicate AllSpace(s: string)
  {
    forall i :: 0 <= i < |s| ==> IsSpace(s[i])
  }

  /** Length of the run of non-space characters at the front of `s`. */
  function WordLength(s: string): (n: nat)
    ensures n <= |s|
    ensures forall i :: 0 <= i < n ==> !IsSpace(s[i])
    ensures n < |s| ==> IsSpace(s[n])
  {
    if s == [] || IsSpace(s[0]) then 0 else 1 + WordLength(s[1..])
  }

  /** strings.Fields: the maximal runs of non-space characters of `s`, in order. */
  function Fields(s: string): (r: seq<string>)
    ensures forall k :: 0 <= k < |r| ==> IsWord(r[k])
    decreases |s|
  {
    if s == [] then []
    else if IsSpace(s[0]) then Fields(s[1..])
    else
      var n := WordLength(s);
      [s[..n]] + Fields(s[n..])
  }

  lemma {:induction false} FieldsOfSpaces(s: string)
    requires AllSpace(s)
    ensures Fields(s) == []
  {
    if s != [] {
      FieldsOfSpaces(s[1..]);
    }
  }

  lemma FieldsAfterWord(w: string, rest: string)
    requires IsWord(w) && (rest == [] || IsSpace(rest[0]))
    ensures Fields(w + rest) == [w] + Fields(rest)
  {
    var s := w + rest;
    assert s[0] == w[0];
    var n := WordLength(s);
    assert forall i :: 0 <= i < |w| ==> s[i] == w[i];
    assert |w| < |s| ==> s[|w|] == rest[0];
    assert n == |w|;
    assert s[..n] == w && s[n..] == rest;
  }

  /** Output shaped like "rows cols\n" splits into exactly the two words. */
  lemma TwoFields(a: string, sep: char, b: string, end: string)
    requires IsWord(a) && IsSpace(sep) && IsWord(b) && AllSpace(end)
    ensures Fields(a + [sep] + b + end) == [a, b]
  {
    FieldsAfterWord(a, [sep] + b + end);
    assert a + [sep] + b + end == a + ([sep] + b + end);
    assert ([sep] + b + end)[1..] == b + end;
    if end != [] {
      assert IsSpace(end[0]);
    }
    FieldsAfterWord(b, end);
    FieldsOfSpaces(end);
  }

  function TrimLeft(s: string): (r: string)
    ensures r == [] || !IsSpace(r[0])
    ensures |r| <= |s| && r == s[|s| - |r|..]
    decreases |s|
  {
    if s != [] && IsSpace(s[0]) then TrimLeft(s[1..]) else s
  }

  function TrimRight(s: string): (r: string)
    ensures r == [] || !IsSpace(r[|r| - 1])
    ensures |r| <= |s| && r == s[..|r|]
    decreases |s|
  {
    if s != [] && IsSpace(s[|s| - 1]) then TrimRight(s[..|s| - 1]) else s
  }

  /** strings.TrimSpace: `s` without its leading and trailing space. */
  function TrimSpace(s: string): (r: string)
    ensures r == [] || (!IsSpace(r[0]) && !IsSpace(r[|r| - 1]))
  {
    TrimRight(TrimLeft(s))
  }

  /** A word followed by trailing space (such as "80\n") trims to the word. */
  lemma {:induction false} TrimWord(w: string, end: string)
    requires IsWord(w) && AllSpace(end)
    ensures TrimSpace(w + end) == w
    decreases |end|
  {
    assert (w + end)[0] == w[0];
    if end == [] {
      assert w + end == w;
      assert !IsSpace(w[|w| - 1]);
    } else {
      var s := w + end;
      assert s[..|s| - 1] == w + end[..|end| - 1];
      TrimWord(w, end[..|end| - 1]);
      assert TrimLeft(s) == s;
      assert TrimLeft(w + end[..|end| - 1]) == w + end[..|end| - 1];
    }
  }

  /** The last element of strings.Split(s, "/"): the text after the last '/',
      or all of `s` when it has none. */
  function LastSegment(s: string): string
    decreases |s|
  {
    if s == [] || s[|s| - 1] == '/' then []
    else LastSegment(s[..|s| - 1]) + [s[|s| - 1]]
  }

  /** The last segment holds no '/', ends `s`, and is all of `s` or follows
      a '/'. */
  lemma {:induction false} LastSegmentShape(s: string)
    ensures var r := LastSegment(s);
      && '/' !in r
      && |r| <= |s| && r == s[|s| - |r|..]
      && (|r| < |s| ==> s[|s| - |r| - 1] == '/')
    decreases |s|
  {
    if s != [] && s[|s| - 1] != '/' {
      var init := s[..|s| - 1];
      LastSegmentShape(init);
      var r := LastSegment(init);
      assert s[|s| - |r| - 1..] == init[|init| - |r|..] + [s[|s| - 1]];
      if |r| < |init| {
        assert s[|s| - |r| - 2] == init[|init| - |r| - 1];
      }
    }
  }

  /** filepath.Join(dir, name), without the lexical cleaning of `dir`:
      empty elements are ignored and a '/' separates the two. */
  function JoinPath(dir: string, name: string): string
  {
    if dir == [] then name
    else if name == [] then dir
    else if dir[|dir| - 1] == '/' then dir + name
    else dir + "/" + name
  }

  /** A joined path is empty only when both parts are, and ends with the
      name. */
  lemma JoinPathShape(dir: string, name: string)
    ensures var p := JoinPath(dir, name);
      && (p == [] <==> dir == [] && name == [])
      && |name| <= |p| && p[|p| - |name|..] == name
      && (dir != [] && name != [] && dir[|dir| - 1] != '/' ==> p == dir + "/" + name)
  {
  }

  /** fmt.Sprintf("%v (%v)", caption, ref): a menu line that names `ref` in
      trailing parentheses. */
  function Entry(caption: string, ref: string): (line: string)
    ensures |line| > 0 && line[|line| - 1] == ')'
  {
    caption + " (" + ref + ")"
  }

  function LastIndexOf(s: string, c: char): (r: Option<nat>)
    ensures r.None? ==> c !in s
    ensures r.Some? ==> r.value < |s| && s[r.value] == c && c !in s[r.value + 1..]
    decreases |s|
  {
    if s == [] then None
    else if s[|s| - 1] == c then Some(|s| - 1)
    else
      var r := LastIndexOf(s[..|s| - 1], c);
      assert r.Some? ==> s[r.value + 1..] == s[..|s| - 1][r.value + 1..] + [s[|s| - 1]];
      r
  }

  /** The text between the last '(' of a line and the ')' that ends it. */
  function TrailingParen(s: string): Option<string>
  {
    if s == [] || s[|s| - 1] != ')' then None
    else
      match LastIndexOf(s[..|s| - 1], '(')
      case None => None
      case Some(i) => Some(s[i + 1..|s| - 1])
  }

  /** Reading the reference back out of a menu line gives the reference, as
      long as it holds no '('. */
  lemma EntryRoundTrip(caption: string, ref: string)
    requires '(' !in ref
    ensures TrailingParen(Entry(caption, ref)) == Some(ref)
  {
    var s := Entry(caption, ref);
    var body := s[..|s| - 1];
    assert body == caption + " (" + ref;
    var k := |caption| + 1;
    assert body[k] == '(';
    assert body[k + 1..] == ref;
    var r := LastIndexOf(body, '(');
    assert r.Some?;
    var i := r.value;
    assert forall j :: i < j < |body| ==> body[j] in body[i + 1..];
    assert forall j :: k < j < |body| ==> body[j] in ref;
    assert i == k;
  }
}
